=== FILE: README.md ===
# Bubbels monitor: the logic under the forms

The Bubbels monitor is a Streamlit app that keeps a baby's log on Google Sheets. Its
records worksheet has one row per sleep (`Slaap`), feeding (`Voeding`), diaper
(`Luier`) or health measurement (`Gezondheid`). A second worksheet holds the
inventory (`Productnaam`, `Actuele voorraad`, `Minimum voorraad`), and a third logs
restocks (`bijvullingen`). Two revisions of the app are modelled: `babytracker_7.py`
(the newer one) and `babytracker_5.py` (the older one).

This project models the pure logic between the widgets and the worksheets:

- **Inventory update.** `update_voorraad` in both revisions. The newer one has a guard
  for an unknown product, clamps at zero and writes one cell. The older one adds with no
  clamp.
- **Stock status.** The colour bands, written two ways. The low-stock list. The
  product-to-stock dictionary.
- **Record rows.**
  - The `R###` record id.
  - The 15-cell row `[id, type] + 13 values` that every form of the newer revision
    appends.
  - The older revision's shorter sleep and diaper rows.
- **Worksheet addressing.** A sheet is a map from `(row, column)` to a cell. The
  DataFrame index plus 2 is the sheet row, and the column position plus 1 is the sheet
  column.
- **`edit_record`.** An ordered run of cell writes that can stop part way. Also the
  per-type edit maps.
- **Dashboard.** Today's tiles, with pumping (`Kolven`) excluded from the feeding count
  and total. The older revision's `dashboard_data` with its latest-five lists.
- **Aggregations.** The per-day sums of the weekly graph and of the analysis tab, and
  `get_daypart`.
- **Forms.** The diaper save (record, then one diaper out of stock), restock with its log
  row, and removal.

How the model represents the app's data:

- A cell is `Num(n)`, `Text(s)` or `Stamp(minute)`, as `get_all_records` hands it
  back. Timestamps are integer minutes, and the day of minute `m` is `m / 1440`.
- A typed string is stored as `StoredText(s)`: the number `int(s)` when Python's `int()`
  accepts it, the text otherwise.
- "Now" and "today" are parameters.
- Whether a worksheet is present is a boolean parameter. So is whether the append in
  `add_record` succeeds, which the source catches. The restock log's `append_row`
  (babytracker_7.py:454) is not caught, and the model takes it to succeed.

| file | module | what it holds |
|---|---|---|
| wrappers.dfy | `Wrappers` | `Option` |
| cells.dfy | `Cells` | cells, `to_numeric(..., errors='coerce')` as `AsNumber`, minutes, days and hours |
| seqs.dfy | `Seqs` | boolean-mask selection and sums over sequences |
| sheet.dfy | `Sheet` | the worksheet as a map, header offset, `append_row`, `edit_record` |
| stock.dfy | `Stock` | inventory table, both `update_voorraad`s, what reaches the worksheet |
| stock_status.dfy | `StockStatus` | colour bands, low-stock list, stock dictionary |
| record_ids.dfy | `RecordIds` | `f"R{n:03}"` |
| records.dfy | `Records` | record kinds and the 15 named columns |
| rows.dfy | `Rows` | the rows each form appends |
| edits.dfy | `Edits` | the edit maps and what they do to a row |
| dashboard.dfy | `Dashboard` | dashboard tiles, sorting, latest-five lists |
| analysis.dfy | `Analysis` | per-day sums, weekly graph, `get_daypart` |
| forms.dfy | `Forms` | `add_record`, diaper saves, restock and removal |

## Model

| member | source | states |
|---|---|---|
| Stock.UpdateStock | babytracker_7.py:107-124 | Without a worksheet or rows, nothing happens. An unknown product gives NotFound and no write. Otherwise every row of the product becomes max(0, old + delta), where a non-numeric old value counts as 0. Every other row's negative stock is reset to 0, names and minimums are kept, no stock is negative, and one cell is written: row first-match index + 2, column stock position + 1, the new value. A non-numeric stock in another row makes the `< 0` comparison raise, so there is no write. |
| Stock.StockCellAt | babytracker_7.py:119-120 | Item `i`'s stock sits at sheet row `i + 2`, column `stockColumn + 1`. |
| Stock.WritePersistsUpdate | babytracker_7.py:115-122 | For a product listed once, with no negative stock in the table, writing the single cell brings the worksheet's stock column exactly to the updated table. |
| Stock.ClampOfOtherRowNotPersisted | babytracker_7.py:118-122 | Another product's negative stock is reset to 0 in memory, but the worksheet keeps the negative value, because only the target cell is written. |
| Stock.UpdateStockV5 | babytracker_5.py:82-91 | Older revision: it is skipped exactly when there is no worksheet or no rows. Otherwise every row of the product gains exactly `delta` with no clamp, other rows are untouched, and the first match's row/column receives the new value. Callers must supply a present product with a numeric stock, since the source raises otherwise. |
| Stock.OlderRevisionGoesNegative | babytracker_5.py:86-91 | The older update can leave a stock below zero, where the newer one stores 0. |
| Stock.RevisionsAgree | babytracker_5.py:82-91 | When no stock goes below zero and all stocks are numeric and non-negative, the two revisions' updates give the same table and the same write. |
| StockStatus.Colour7 | babytracker_7.py:445 | The newer revision's colour lies in its band: green iff val > min+2, orange iff min < val <= min+2, red iff val <= min. |
| StockStatus.Colour5 | babytracker_5.py:181-185 | The older revision's red/orange/green cascade lands in the same bands. |
| StockStatus.BandsPartition | babytracker_7.py:445 | Every (val, min) pair lies in exactly one band. |
| StockStatus.ColoursAgree | babytracker_5.py:181-185 | The two revisions give the same colour for every stock and minimum. |
| StockStatus.DisplayedColour | babytracker_7.py:438-446 | The inventory tab shows the band colour for numeric cells, and red when a cell is not a number (both values fall back to 0). |
| StockStatus.LowStock | babytracker_5.py:106 | A name is on the low-stock list iff some row of that name has stock <= minimum, and the list is no longer than the table. |
| StockStatus.LowStockConcat | babytracker_5.py:106 | The list follows table order: the list of a split table is the concatenation of the parts' lists. |
| StockStatus.LowIsRed | babytracker_5.py:106 | A product is on the low-stock list iff the dashboard colours it red. |
| StockStatus.StockByName | babytracker_5.py:113 | `dict(zip(...))` has a key for every product and only those keys, and a name's value is the stock of its last row. |
| RecordIds.RecordIdShape | babytracker_7.py:133 | The id is "R" followed by at least three digits that read as count + 1. |
| RecordIds.RecordIdInjective | babytracker_7.py:133 | Different counts give different ids. |
| RecordIds.ShortIds | babytracker_7.py:133 | With at most 998 records loaded (count + 1 < 1000) the id is exactly four characters (zero-padded). |
| Records.KindLabelRoundTrip | babytracker_7.py:134 | The type label written into a row reads back as the same kind. |
| Cells.StoredTextKept | babytracker_7.py:62 | `get_all_records` numericises what it reads: a typed string comes back as the same text exactly when `int()` rejects it, and never as a time. |
| Cells.StoredDigits | babytracker_7.py:62 | A typed string of decimal digits, bare or after a sign, comes back as its number (a note "12" loads as 12). |
| Cells.WordStaysText | babytracker_7.py:62 | A typed string with a non-digit past a leading sign comes back as itself. |
| Rows.FormRowsHaveFifteenColumns | babytracker_7.py:288-424 | The sleep, feeding, diaper and health forms all append 15 cells. |
| Rows.SleepRoundTrip | babytracker_7.py:281-293 | A saved sleep reads back with end = start + duur (so end >= start), amount = duur and the note as the loader numericises it. |
| Rows.FeedRoundTrip | babytracker_7.py:334-350 | A saved feeding reads back with its start, side, bottle and note (each as the loader numericises it) and its feeding type. The amount is ml for Borst and Fles. A pumping session has amount 0 and its ml in Kolven. |
| Rows.DiaperRoundTrip | babytracker_7.py:364-382 | A saved diaper reads back with its start, diaper type and note (each as the loader numericises it), and amount 0. |
| Rows.HealthRoundTrip | babytracker_7.py:403-424 | A saved health record reads back with its weight, length, temperature and remarks (the remarks as the loader numericises them). |
| Sheet.WriteRow | babytracker_7.py:135 | `append_row` puts each cell in the given row at position + 1 and changes no other cell. |
| Sheet.Table | babytracker_7.py:483 | Header in row 1. The DataFrame cell (i, j) is at sheet row i + 2, column j + 1. No cell lies outside the header's columns or past the end of its own data row. |
| Sheet.AppendLandsAtNextIndex | babytracker_7.py:135 | Appending a row to the table writes it at the sheet row of the next DataFrame index. |
| Sheet.ApplyWritesFrame | babytracker_7.py:149-151 | Cells outside the edited row, or in columns the map does not name, are unchanged. |
| Sheet.ApplyWritesLand | babytracker_7.py:149-151 | With distinct columns, every value of the map ends up in its column of the edited row. |
| Sheet.Completed | babytracker_7.py:145-158 | No more writes complete than the map holds. |
| Sheet.EditRecord | babytracker_7.py:145-158 | `edit_record` answers true iff the worksheet exists and no write fails. The worksheet is the map's first k writes applied in order: k = 0 without a worksheet, k = the failing write's position, else all. Cells outside the map are unchanged. |
| Edits.EditedTableCell | babytracker_7.py:482-484 | Edits addressed at sheet row index + 2 change the cells of DataFrame row `index`, as the row-level edit says. |
| Edits.EditedCell | babytracker_7.py:482-484 | On any worksheet, writing the updates in order to one row leaves each of its cells holding what the row-level edit gives for that column. |
| Edits.ShownRecordIsEditedRow | babytracker_5.py:300-301 | `rij_index - 2` is the index again, so the record shown is the row the edit writes. |
| Edits.SelectRecord | babytracker_7.py:482 | The selected record has the chosen type and start minute and is the first such. None exactly when no record matches. |
| Edits.SleepEditAligned | babytracker_7.py:493 | The sleep edit turns a saved sleep row into the row a fresh save of the new values makes, id kept. |
| Edits.DiaperEditAligned | babytracker_7.py:510 | The same for the diaper edit. |
| Edits.SleepEditV5Aligned | babytracker_5.py:315-319 | The older sleep edit writes columns 3 to 7 and gives the row a fresh save of the new values makes. |
| Edits.FeedEditMisplaced | babytracker_7.py:503 | As written, the feeding edit stores the side in Type Luier, pumped ml in Borst and the bottle kind in Kolven, and leaves Fles unchanged. |
| Edits.HealthEditMisplaced | babytracker_7.py:517 | As written, the health edit stores weight in Opmerking, length in Type Luier, temperature in Borst and remarks in Kolven. Gewicht, Lengte, Temperatuur and Opmerkingen keep their old values. |
| Edits.FeedEditFixed | babytracker_7.py:339-350 | The corrected feeding map puts each value in its own field and leaves id, type, feeding type, diaper, end, weight, length, temperature and remarks alone. |
| Edits.HealthEditFixed | babytracker_7.py:412-424 | The corrected health map puts each measurement and the remarks in its own field. It leaves id, type, start, end, amount, note, diaper, side, pumped, bottle and feeding type alone. |
| Dashboard.Latest | babytracker_7.py:201 | The latest start among the records is a start of one of them and no earlier than any other. None iff no record has a start. |
| Seqs.FilterCount | babytracker_7.py:197-198 | A boolean mask keeps each accepted row as often as the table holds it and drops every other row. |
| Dashboard.Overview | babytracker_7.py:186-236 | Nothing without records (the `Type` lookup fails). Otherwise each tile's count is the number of table rows its mask marks: Slaap, or Luier, started today; Voeding of type Borst or Fles started today. Its latest time is the largest start among those rows. The ml total is the sum of the marked feedings' amounts. A latest time is on today, and a tile shows one iff its count is nonzero (the `empty` branch shows 0 and no time). |
| Seqs.FilterLength | babytracker_7.py:199-200 | `len` of a masked frame is the number of rows the mask marks. |
| Seqs.FilterSum | babytracker_7.py:218 | Summing a column of a masked frame sums it over the marked rows. |
| Dashboard.TileOfMarked | babytracker_7.py:199-201 | A tile over a masked frame counts the marked rows, and its latest time is a marked row's start that no marked row's start exceeds (none when no marked row has a start). |
| Dashboard.TodayOfExact | babytracker_7.py:197-198 | The sleep and diaper masks keep a record, as often as the table holds it, iff it has the tile's type and started today. |
| Dashboard.FeedsTodayExact | babytracker_7.py:209-213 | The feeding mask keeps a record, as often as the table holds it, iff it is a Voeding of type Borst or Fles started today. |
| Dashboard.KolvenNeverCounted | babytracker_7.py:209-218 | Inserting a pumping record anywhere changes neither the feeding tile nor the ml total. A table holding only that record shows an empty feeding tile and 0 ml. |
| Dashboard.FeedTotalSplits | babytracker_7.py:218 | The ml total is additive over any split of the table. |
| Dashboard.SortDesc | babytracker_5.py:101 | `sort_values(ascending=False)` gives a permutation in descending start order. |
| Dashboard.SortedPrefix | babytracker_5.py:101 | The first n of a descending arrangement are the latest n: everything left out starts no later. |
| Dashboard.LatestFive | babytracker_5.py:99-104 | Each latest list has at most 5 records. All are of that type and dated today, in descending start order. It holds min(5, today's count) of them, and every left-out record starts no later. |
| Dashboard.DashboardData | babytracker_5.py:96-115 | Nothing without records. Otherwise it holds the four latest-five lists and the low-stock list: one entry per low row, in table order, naming exactly the low products. The stock dictionary has a key for every product and no other, and each product's value is the stock of its last row. Stocks and minimums must be numeric when records exist, because the comparison raises on a mixed column. |
| Analysis.DailyTotalsCharacterised | babytracker_7.py:540 | `groupby(date).sum()` has a key for exactly the dates with a selected record. Each value is the sum over that date's records, and an absent date sums to 0. |
| Analysis.SameSumsSameTotals | babytracker_7.py:540 | Two tables with the same per-date selections and sums give the same grouping. |
| Analysis.WeeklyTotals | babytracker_5.py:121-127 | The weekly graph has no date earlier than the day seven days before now. |
| Analysis.WeeklyTotalsAreSums | babytracker_5.py:121-127 | A date is plotted iff a record of that type started on it within the last seven days, and its value is the sum of those records' amounts. |
| Analysis.SkippedRecord | babytracker_7.py:539-540 | A record the mask rejects changes no date's presence or sum. |
| Analysis.KolvenNotInDailyTotals | babytracker_7.py:539-540 | A pumping record never changes the daily feeding totals. |
| Analysis.SleepCountsCount | babytracker_7.py:584 | Each date in the sleep count has the number of sleeps started that day, at least 1. |
| Analysis.SleepMinutesNonNegative | babytracker_7.py:594-596 | When every sleep ends no earlier than it starts, no date's minutes are negative; other records may carry any times. |
| Analysis.DaypartBands | babytracker_7.py:553-561 | Every hour 0-23 falls in exactly one six-hour band: [6,12) Ochtend, [12,18) Middag, [18,24) Avond, [0,6) Nacht. Each band's first hour maps back to it. |
| Analysis.DaypartOfStart | babytracker_7.py:563 | A start minute's daypart band contains that minute's time of day. |
| Cells.HourOf | babytracker_7.py:563 | The hour of a minute is in 0-23 and the minute falls inside that hour of its day. |
| Forms.AddRecord | babytracker_7.py:129-143 | `add_record` answers true iff the worksheet exists and the append succeeds. On false the sheet is unchanged. On true one row is appended below the existing rows: the id from the loaded count, a type label that reads back as the kind, then the values. |
| Forms.IdsInOrderAreDistinct | babytracker_7.py:133 | Rows numbered by save order carry distinct ids. |
| Forms.FreshCountKeepsIdsDistinct | babytracker_7.py:133 | Saving with the current record count keeps ids in save order, so they stay distinct. |
| Forms.StaleCountRepeatsId | babytracker_7.py:133 | Saving with a count read before an earlier save (the cached table) repeats an existing id. |
| Forms.CachedStockLosesUpdate | babytracker_7.py:60-63 | Two stock changes applied to the same cached inventory write the same cell, and the sheet ends at old + second change: the first change is lost. |
| Forms.FreshStockKeepsBoth | babytracker_7.py:107-124 | Against the table the first change left, the second change writes the same cell, and it ends at old + both changes. |
| Forms.SaveDiaper | babytracker_7.py:364-389 | The diaper row is appended as `add_record` does. Stock changes and the stock write happen only after a successful append, and take Luiers to max(0, old - 1). The write happens iff the append succeeded, the inventory is there, Luiers is present and no other stock is text. It goes to the first Luiers row's cell and carries that row's new stock. |
| Forms.SaveDiaperV5 | babytracker_5.py:243-248 | The older diaper save appends a 7-cell row: id, Luier, start, empty end, amount 1, the note and the diaper type. With an inventory it takes exactly 1 from every Luiers row and leaves the others unchanged. It writes old - 1 to the first Luiers row's cell (row index + 2, column stock position + 1). Without an inventory it writes nothing. |
| Forms.DiaperSaveBalances | babytracker_5.py:246-247 | The appended amount plus the new Luiers stock equals the old stock. |
| Forms.Restock | babytracker_7.py:451-455 | Restocking never lowers the product's stock, and gives NotFound exactly for an absent product. It raises exactly when the product is present and another row's stock is text. On success the one write goes to the product's first row (sheet row index + 2) in the stock column and carries max(0, old + n). It is Skipped exactly when there is no inventory. The log row `[now, product, n]` is appended when the log worksheet exists and the update did not raise. |
| Forms.UnknownProductStillLogged | babytracker_7.py:451-455 | A product missing from the inventory is not updated but is still logged. |
| Forms.RemoveStock | babytracker_7.py:458-466 | Removing n leaves old - n when n <= old, and 0 otherwise. It succeeds exactly when the product is present and every other stock is numeric. It gives NotFound exactly for an absent product, raises exactly when another row's stock is text, and is Skipped exactly when there is no inventory. On success the one write goes to the product's first row in the stock column and carries max(0, old - n). |

## Left out

- The session timer: neither revision has one, so there is nothing to model.
- Streamlit widgets, tabs, the option menu and the charts (UI only).
  - The Kolven amount widget (`min_value=10, value=0`) is not modelled.
    Streamlit rejects a default below the minimum, so choosing Kolven in the newer
    feeding form (babytracker_7.py:331) raises before the save button.
  - The diaper edit form's option list (Plas/Poep/Beiden, while the newer save form offers Nat/Vuil) is not modelled.
    Its default is `['Plas','Poep','Beiden'].index(...)` of the saved type
    (babytracker_7.py:506), which raises ValueError for every diaper the newer form
    saves as Nat or Vuil. So the edit `Edits.DiaperEditAligned` describes is reachable
    only for rows whose diaper type reads Plas, Poep or Beiden.
  - Removal's `max_value` bound is a widget limit; `Forms.RemoveStock` takes any `n`.
- Google credentials, the gspread client and opening worksheets (external I/O). A
  worksheet's presence and each call's success are parameters.
- `@st.cache_data(ttl=60)` on `load_data` (babytracker_7.py:60-101): runtime caching.
  The model has no clock for it. It has two visible effects, and both are parameters.
  - The record count used for a new id is a parameter of `Forms.AddRecord`.
  - The inventory that `update_voorraad` starts from is a parameter of the stock
    operations. A run within the minute gets the cached copy, not the written one.
    `Forms.CachedStockLosesUpdate` shows that the second of two stock changes then
    overwrites the first.
- pandas and pytz timestamp parsing and the Europe/Amsterdam conversion. Times are
  integer minutes, and a cell that is not a timestamp has no start.
- `datetime.now()` and `today()`: they are parameters.
- Float parsing of the health fields, the comma-to-dot coercion, the health "latest
  record" tile and the per-daypart mean (floating point).
- The older revision's feeding and health forms. They follow the pattern of its sleep
  and diaper rows. Its edit tab (babytracker_5.py:288-320) has only the sleep branch,
  and that branch is modelled.
- Rows.FeedRoundTrip: its Kolven case describes a row the newer form cannot save,
  because the Kolven widget raises first (babytracker_7.py:331). The Borst and Fles
  cases are reachable.
- Edits.SleepEditV5Aligned: the older sleep edit evaluates
  `["Dutje","Nacht"].index(record.get('Type','Dutje'))` (babytracker_5.py:309). Every
  row it offers has Type "Slaap" (babytracker_5.py:291), so this raises ValueError
  before the button. The writes at babytracker_5.py:315-319 never run. The lemma
  describes what they would do.
- Forms.Restock: a failing log `append_row` raises in the source. The model always
  appends the log row when the log worksheet exists and the update did not raise.
- Times typed into the forms and edits are combined with `datetime.today()`
  (babytracker_7.py:286, 492, 502, 509; babytracker_5.py:314). Editing an earlier record
  therefore moves it to today. The newer edit widgets pass the old duration and amount
  as `min_value` (babytracker_7.py:489, 496), so an edit cannot shorten a sleep or lower
  an amount. The model takes start minutes and values as free parameters and does not
  model either restriction.
- Stock.UpdateStock: a failing `update_cell` is caught by the source and leaves the
  in-memory table changed. The model returns the write it asks for and does not model
  the call's failure.
- Stock.UpdateStockV5: a product missing from the inventory, or one with a non-numeric
  stock, makes the source raise. The model requires the caller to avoid these.
- Forms.SaveDiaperV5: the source calls `append_row` without checking that the worksheet
  exists. The model assumes the worksheet exists and the append succeeds.
- Dashboard.DashboardData: the low-stock comparison `stock <= minimum` raises when a
  column mixes numbers and text, whether in the stock or in the minimum. The model
  requires both columns to be numeric (`AllNumeric`) whenever records exist. An
  inventory whose two columns are both all text compares as strings in the source,
  and the model does not cover that case.
- Cells.StoredText: gspread's `numericise` also turns strings with surrounding
  whitespace, with non-ASCII digits, or that `float()` accepts ("1.5", "1e3", "nan")
  into numbers. The model keeps those as text, since it has no floats.
- Product names are strings in the model. A name that reads as a number (say "123")
  loads as a number in the source; the model assumes no product is named that way.
- Dashboard.SortDesc: pandas' order among records with equal start times is not
  promised. The model fixes one order and states only descending order and permutation.
- Edits.SelectRecord: the source takes the first match in sorted order. The model takes
  the first in table order. They differ only among records of the same type and minute.
- Edits.SelectRecord: with no records at all, the edit tab's `baby_records['Type']`
  lookup raises (babytracker_7.py:475, babytracker_5.py:291). The model answers None,
  as it does when no record matches, and does not model the failure.

## Findings

| source | as written | input that shows it | evidently intended | confidence | as-written member | corrected member |
|---|---|---|---|---|---|---|
| babytracker_7.py:503 | The feeding edit writes Borst, Kolven and Fles to columns 7, 8 and 9. That is the older revision's layout, but the newer feeding row (babytracker_7.py:339-350) has Type Luier at 7, Borst at 8, Kolven at 9 and Fles at 10. | Edit any saved feeding with side "Links": the sheet's Type Luier cell becomes "Links", and Fles keeps its old value. | Columns 8, 9 and 10 for Borst, Kolven and Fles. | high, not executed | Edits.FeedEditMisplaced | Edits.FeedEditFixed |
| babytracker_7.py:517 | The health edit writes weight, length, temperature and remarks to columns 6 to 9. The newer health row (babytracker_7.py:412-424) has them at 12 to 15. | Edit any saved health record: its weight lands in Opmerking and the remarks in Kolven, and Gewicht keeps its old value. | Columns 12, 13, 14 and 15. | high, not executed | Edits.HealthEditMisplaced | Edits.HealthEditFixed |

=== FILE: analysis.dfy ===
/**
 * Per-day aggregation: the older revision's seven-day graphs
 * (`plot_weekly_graph`) and the newer revision's analysis tab (daily feeding
 * totals, daily sleep counts and minutes), plus `get_daypart`'s hour bands.
 */
module Analysis {
  import opened Wrappers
  import opened Cells
  import opened Seqs
  import opened Records
  import opened Dashboard

  /** `groupby(date)[...].sum()` over the records `keep` selects, weighing each by
      `weight`. Records without a start time have no date and fall out of the grouping;
      a date with no selected record has no entry. */
  function DailyTotals(rs: seq<Record>, keep: Record -> bool, weight: Record -> int): map<int, int>
    decreases |rs|
  {
    if |rs| == 0 then map[]
    else
      var m := DailyTotals(rs[..|rs| - 1], keep, weight);
      var r := rs[|rs| - 1];
      if keep(r) && r.start.Some? then
        var d := Day(r.start.value);
        m[d := (if d in m then m[d] else 0) + weight(r)]
      else m
  }

  /** Reference definition: the sum of `weight` over the selected records of day `d`. */
  function SumOnDay(rs: seq<Record>, keep: Record -> bool, weight: Record -> int, d: int): int
  {
    SumOf(Filter(rs, KeepOn(keep, d)), weight)
  }

  function One(r: Record): int
  {
    1
  }

  predicate AnyOnDay(rs: seq<Record>, keep: Record -> bool, d: int)
  {
    exists i :: 0 <= i < |rs| && keep(rs[i]) && OnDay(rs[i], d)
  }

  /** Appending one record extends the day's selection by that record when it is selected. */
  lemma SelectedSnoc(rs: seq<Record>, r: Record, keep: Record -> bool, d: int)
    ensures Filter(rs + [r], KeepOn(keep, d))
            == Filter(rs, KeepOn(keep, d)) + (if keep(r) && OnDay(r, d) then [r] else [])
  {
    var p := KeepOn(keep, d);
    FilterConcat(rs, [r], p);
    assert [r][1..] == [];
    if p(r) {
      assert Filter([r], p) == [r];
    } else {
      assert Filter([r], p) == [];
    }
  }

  lemma SumOnDaySnoc(rs: seq<Record>, r: Record, keep: Record -> bool, weight: Record -> int, d: int)
    ensures SumOnDay(rs + [r], keep, weight, d)
            == SumOnDay(rs, keep, weight, d) + (if keep(r) && OnDay(r, d) then weight(r) else 0)
  {
    var p := KeepOn(keep, d);
    SelectedSnoc(rs, r, keep, d);
    var tail := if keep(r) && OnDay(r, d) then [r] else [];
    SumOfConcat(Filter(rs, p), tail, weight);
    if p(r) {
      assert SumOf(tail, weight) == weight(r) + SumOf(tail[1..], weight);
      assert tail[1..] == [];
    }
  }

  /** Some record of `rs` is selected on day `d` exactly when the day's selection is not empty. */
  lemma AnyOnDayIsSelection(rs: seq<Record>, keep: Record -> bool, d: int)
    ensures AnyOnDay(rs, keep, d) <==> |Filter(rs, KeepOn(keep, d))| > 0
  {
    var p := KeepOn(keep, d);
    var ys := Filter(rs, p);
    if AnyOnDay(rs, keep, d) {
      var i :| 0 <= i < |rs| && keep(rs[i]) && OnDay(rs[i], d);
      assert p(rs[i]);
      assert rs[i] in ys;
    }
    if |ys| > 0 {
      assert p(ys[0]) && ys[0] in rs;
      var i :| 0 <= i < |rs| && rs[i] == ys[0];
      assert keep(rs[i]) && OnDay(rs[i], d);
    }
  }

  /** Appending one record adds its weight to its own day's entry, if it is selected,
      and leaves every other day's entry as it was. */
  lemma DailyTotalsSnoc(rs: seq<Record>, r: Record, keep: Record -> bool, weight: Record -> int, d: int)
    ensures var m := DailyTotals(rs, keep, weight);
            var m' := DailyTotals(rs + [r], keep, weight);
            && (d in m' <==> d in m || (keep(r) && OnDay(r, d)))
            && (d in m' ==> m'[d] == (if d in m then m[d] else 0) + (if keep(r) && OnDay(r, d) then weight(r) else 0))
  {
    assert (rs + [r])[..|rs|] == rs;
  }

  /** The grouping, stated against the day's selection. */
  lemma {:induction false} DailyTotalsBySelection(rs: seq<Record>, keep: Record -> bool, weight: Record -> int, d: int)
    ensures d in DailyTotals(rs, keep, weight) <==> |Filter(rs, KeepOn(keep, d))| > 0
    ensures d in DailyTotals(rs, keep, weight) ==> DailyTotals(rs, keep, weight)[d] == SumOnDay(rs, keep, weight, d)
    ensures d !in DailyTotals(rs, keep, weight) ==> SumOnDay(rs, keep, weight, d) == 0
    decreases |rs|
  {
    if |rs| == 0 {
      assert Filter(rs, KeepOn(keep, d)) == [];
    } else {
      var init := rs[..|rs| - 1];
      var r := rs[|rs| - 1];
      assert rs == init + [r];
      DailyTotalsBySelection(init, keep, weight, d);
      SelectionStep(init, r, keep, weight, d);
    }
  }

  /** The grouping's agreement with the day's selection survives appending one record. */
  lemma SelectionStep(rs: seq<Record>, r: Record, keep: Record -> bool, weight: Record -> int, d: int)
    requires d in DailyTotals(rs, keep, weight) <==> |Filter(rs, KeepOn(keep, d))| > 0
    requires d in DailyTotals(rs, keep, weight) ==> DailyTotals(rs, keep, weight)[d] == SumOnDay(rs, keep, weight, d)
    requires d !in DailyTotals(rs, keep, weight) ==> SumOnDay(rs, keep, weight, d) == 0
    ensures d in DailyTotals(rs + [r], keep, weight) <==> |Filter(rs + [r], KeepOn(keep, d))| > 0
    ensures d in DailyTotals(rs + [r], keep, weight) ==>
              DailyTotals(rs + [r], keep, weight)[d] == SumOnDay(rs + [r], keep, weight, d)
    ensures d !in DailyTotals(rs + [r], keep, weight) ==> SumOnDay(rs + [r], keep, weight, d) == 0
  {
    DailyTotalsSnoc(rs, r, keep, weight, d);
    SumOnDaySnoc(rs, r, keep, weight, d);
    SelectedSnoc(rs, r, keep, d);
  }

  /** The grouping has an entry for exactly the days with a selected record, and each
      entry is that day's sum. */
  lemma DailyTotalsCharacterised(rs: seq<Record>, keep: Record -> bool, weight: Record -> int, d: int)
    ensures d in DailyTotals(rs, keep, weight) <==> AnyOnDay(rs, keep, d)
    ensures d in DailyTotals(rs, keep, weight) ==> DailyTotals(rs, keep, weight)[d] == SumOnDay(rs, keep, weight, d)
    ensures d !in DailyTotals(rs, keep, weight) ==> SumOnDay(rs, keep, weight, d) == 0
  {
    DailyTotalsBySelection(rs, keep, weight, d);
    AnyOnDayIsSelection(rs, keep, d);
  }

  /** Two tables whose selected records agree day by day give the same grouping. */
  lemma SameSumsSameTotals(a: seq<Record>, b: seq<Record>, keep: Record -> bool, weight: Record -> int)
    requires forall d :: AnyOnDay(a, keep, d) <==> AnyOnDay(b, keep, d)
    requires forall d :: SumOnDay(a, keep, weight, d) == SumOnDay(b, keep, weight, d)
    ensures DailyTotals(a, keep, weight) == DailyTotals(b, keep, weight)
  {
    var ma := DailyTotals(a, keep, weight);
    var mb := DailyTotals(b, keep, weight);
    forall d
      ensures d in ma <==> d in mb
      ensures d in ma ==> ma[d] == mb[d]
    {
      DailyTotalsCharacterised(a, keep, weight, d);
      DailyTotalsCharacterised(b, keep, weight, d);
    }
    assert ma.Keys == mb.Keys;
  }

  // ----- the older revision: `plot_weekly_graph(type_event)` -----

  /** Selected for the weekly graph: the given kind, started no earlier than seven days
      before now. */
  predicate InLastWeek(r: Record, kind: Kind, now: int)
  {
    r.kind == kind && r.start.Some? && r.start.value >= now - 7 * MinutesPerDay
  }

  function LastWeek(kind: Kind, now: int): Record -> bool
  {
    (r: Record) => InLastWeek(r, kind, now)
  }

  /** The per-date sums the weekly graph plots. */
  function WeeklyTotals(rs: seq<Record>, kind: Kind, now: int): (m: map<int, int>)
    ensures forall d :: d in m ==> d >= Day(now - 7 * MinutesPerDay)
  {
    var m := DailyTotals(rs, LastWeek(kind, now), AmountOf);
    assert forall d :: d in m ==> d >= Day(now - 7 * MinutesPerDay) by {
      forall d | d in m
        ensures d >= Day(now - 7 * MinutesPerDay)
      {
        DailyTotalsCharacterised(rs, LastWeek(kind, now), AmountOf, d);
      }
    }
    m
  }

  /** Each plotted date's value is the sum of the amounts of that kind's records of the
      last week started on it; dates without such records are absent. */
  lemma WeeklyTotalsAreSums(rs: seq<Record>, kind: Kind, now: int, d: int)
    ensures d in WeeklyTotals(rs, kind, now) <==>
              exists i :: 0 <= i < |rs| && InLastWeek(rs[i], kind, now) && OnDay(rs[i], d)
    ensures d in WeeklyTotals(rs, kind, now) ==>
              WeeklyTotals(rs, kind, now)[d] == SumOf(Filter(rs, KeepOn(LastWeek(kind, now), d)), AmountOf)
  {
    DailyTotalsCharacterised(rs, LastWeek(kind, now), AmountOf, d);
  }

  // ----- the newer revision's analysis tab -----

  /** Daily feeding totals: breast and bottle feedings only, summed per date. */
  function DailyFeedTotals(rs: seq<Record>): map<int, int>
  {
    DailyTotals(rs, IsFeed, AmountOf)
  }

  /** A record `keep` rejects changes neither which days have selected records nor
      their sums. */
  lemma SkippedRecord(a: seq<Record>, k: Record, b: seq<Record>, keep: Record -> bool, weight: Record -> int, d: int)
    requires !keep(k)
    ensures AnyOnDay(a + [k] + b, keep, d) <==> AnyOnDay(a + b, keep, d)
    ensures SumOnDay(a + [k] + b, keep, weight, d) == SumOnDay(a + b, keep, weight, d)
  {
    assert !KeepOn(keep, d)(k);
    FilterSkips(a, k, b, KeepOn(keep, d));
    AnyOnDayIsSelection(a + [k] + b, keep, d);
    AnyOnDayIsSelection(a + b, keep, d);
  }

  /** A pumping session never changes the daily feeding totals, wherever it stands. */
  lemma KolvenNotInDailyTotals(a: seq<Record>, k: Record, b: seq<Record>)
    requires k.feedType == Text("Kolven")
    ensures DailyFeedTotals(a + [k] + b) == DailyFeedTotals(a + b)
  {
    assert !IsFeed(k) by {
      assert k.feedType != Text("Borst") && k.feedType != Text("Fles");
    }
    forall d
      ensures AnyOnDay(a + [k] + b, IsFeed, d) <==> AnyOnDay(a + b, IsFeed, d)
      ensures SumOnDay(a + [k] + b, IsFeed, AmountOf, d) == SumOnDay(a + b, IsFeed, AmountOf, d)
    {
      SkippedRecord(a, k, b, IsFeed, AmountOf, d);
    }
    SameSumsSameTotals(a + [k] + b, a + b, IsFeed, AmountOf);
  }

  /** Minutes slept by one record: end minus start, 0 when either is missing. */
  function SleepMinutes(r: Record): int
  {
    if r.start.Some? && r.end.Some? then r.end.value - r.start.value else 0
  }

  predicate IsSleep(r: Record)
  {
    r.kind == Slaap
  }

  /** Daily number of sleeps (`groupby('Datum').size()`). */
  function DailySleepCounts(rs: seq<Record>): map<int, int>
  {
    DailyTotals(rs, IsSleep, One)
  }

  /** Daily minutes slept. */
  function DailySleepMinutes(rs: seq<Record>): map<int, int>
  {
    DailyTotals(rs, IsSleep, SleepMinutes)
  }

  /** Every date in the sleep count has at least one sleep, and the count is the number
      of sleeps started that day. */
  lemma SleepCountsCount(rs: seq<Record>, d: int)
    ensures d in DailySleepCounts(rs) ==>
              DailySleepCounts(rs)[d] == |Filter(rs, KeepOn(IsSleep, d))| >= 1
  {
    var p := KeepOn(IsSleep, d);
    DailyTotalsCharacterised(rs, IsSleep, One, d);
    SumOfOnesIsLength(Filter(rs, p));
    if d in DailySleepCounts(rs) {
      var i :| 0 <= i < |rs| && IsSleep(rs[i]) && OnDay(rs[i], d);
      assert rs[i] in Filter(rs, p);
    }
  }

  lemma {:induction false} SumOfOnesIsLength(xs: seq<Record>)
    ensures SumOf(xs, One) == |xs|
  {
    if |xs| > 0 {
      SumOfOnesIsLength(xs[1..]);
    }
  }

  /** With every sleep's end at or after its start, no day's minutes are negative. */
  lemma SleepMinutesNonNegative(rs: seq<Record>, d: int)
    requires forall i :: 0 <= i < |rs| && IsSleep(rs[i]) ==> SleepMinutes(rs[i]) >= 0
    ensures d in DailySleepMinutes(rs) ==> DailySleepMinutes(rs)[d] >= 0
  {
    DailyTotalsCharacterised(rs, IsSleep, SleepMinutes, d);
    var f := Filter(rs, KeepOn(IsSleep, d));
    forall i | 0 <= i < |f|
      ensures SleepMinutes(f[i]) >= 0
    {
      assert KeepOn(IsSleep, d)(f[i]) && f[i] in rs;
    }
    SumOfNonNegative(f, SleepMinutes);
  }

  lemma {:induction false} SumOfNonNegative(xs: seq<Record>, f: Record -> int)
    requires forall i :: 0 <= i < |xs| ==> f(xs[i]) >= 0
    ensures SumOf(xs, f) >= 0
  {
    if |xs| > 0 {
      SumOfNonNegative(xs[1..], f);
    }
  }

  // ----- `get_daypart(hour)` -----

  datatype Daypart = Ochtend | Middag | Avond | Nacht

  /** Morning from 6, afternoon from 12, evening from 18, night otherwise. */
  function DaypartOf(hour: int): Daypart
  {
    if 6 <= hour < 12 then Ochtend
    else if 12 <= hour < 18 then Middag
    else if 18 <= hour < 24 then Avond
    else Nacht
  }

  /** The first hour of each band. */
  function FirstHour(p: Daypart): int
  {
    match p
    case Nacht => 0
    case Ochtend => 6
    case Middag => 12
    case Avond => 18
  }

  /** Every hour of the day lies in the six-hour band starting at its daypart's first hour,
      and every band is reached. */
  lemma DaypartBands(hour: int, p: Daypart)
    requires 0 <= hour < 24
    ensures FirstHour(DaypartOf(hour)) <= hour < FirstHour(DaypartOf(hour)) + 6
    ensures DaypartOf(FirstHour(p)) == p
    ensures DaypartOf(hour) == p <==> FirstHour(p) <= hour < FirstHour(p) + 6
  {
  }

  /** The daypart of a feeding is that of its start minute's hour. */
  function DaypartOfStart(minute: int): (p: Daypart)
    ensures FirstHour(p) * MinutesPerHour <= minute - Day(minute) * MinutesPerDay < (FirstHour(p) + 6) * MinutesPerHour
  {
    var h := HourOf(minute);
    DaypartBands(h, DaypartOf(h));
    DaypartOf(h)
  }
}

=== FILE: cells.dfy ===
/**
 * Cells of the Google worksheets as the app reads and writes them, and the
 * clock arithmetic it applies to their timestamps. A timestamp is a whole
 * number of minutes in the local zone (Europe/Amsterdam), counted from an
 * epoch that falls on a local midnight, so that day and hour follow by
 * division.
 */
module Cells {
  import opened Wrappers
  import opened RecordIds

  /** One worksheet cell, as `get_all_records` hands it back.
      `Num` is a cell that comes back as a whole number (stock, amount, duration, or a
      typed text that reads as one); `Stamp` is a timestamp written in the
      `%Y-%m-%d %H:%M` format, kept as its minute; `Text` is every other cell, the empty
      one included. */
  datatype Cell = Num(n: int) | Text(s: string) | Stamp(minute: int)

  /** The empty cell `''` that the forms write into unused columns. */
  const Empty: Cell := Text("")

  /** Python's `int()` on a string of ASCII digits after an optional sign. */
  predicate ReadsAsInt(s: string)
  {
    |s| > 0 && if s[0] == '+' || s[0] == '-' then |s| > 1 && AllDigits(s[1..]) else AllDigits(s)
  }

  function IntValue(s: string): int
    requires ReadsAsInt(s)
  {
    if s[0] == '-' then -(ParseDigits(s[1..]) as int)
    else if s[0] == '+' then ParseDigits(s[1..])
    else ParseDigits(s)
  }

  /** The cell a typed string comes back as: `get_all_records` numericises every value,
      so a string that `int()` accepts reads back as that number, and any other string
      as itself. */
  function StoredText(s: string): Cell
  {
    if ReadsAsInt(s) then Num(IntValue(s)) else Text(s)
  }

  /** A typed string comes back unchanged exactly when it does not read as a whole number,
      and then as a text and never as a number or a time. */
  lemma StoredTextKept(s: string)
    ensures StoredText(s) == Text(s) <==> !ReadsAsInt(s)
    ensures StoredText(s).Text? <==> !ReadsAsInt(s)
    ensures !StoredText(s).Stamp?
  {
  }

  /** A note of decimal digits, signed or not, comes back as its number. */
  lemma StoredDigits(n: nat)
    ensures StoredText(Digits(n)) == Num(n)
    ensures StoredText("-" + Digits(n)) == Num(-(n as int))
    ensures StoredText("+" + Digits(n)) == Num(n)
  {
    var d := Digits(n);
    ParseDigits_Digits(n);
    assert IsDigit(d[0]);
    SignedDigits('-', d);
    SignedDigits('+', d);
  }

  lemma SignedDigits(sign: char, d: string)
    requires |d| > 0 && AllDigits(d) && (sign == '+' || sign == '-')
    ensures ReadsAsInt([sign] + d)
    ensures ([sign] + d)[0] == sign && ([sign] + d)[1..] == d
  {
    assert ([sign] + d)[1..] == d;
  }

  /** A string with a character other than a digit, a leading sign aside, stays text. */
  lemma WordStaysText(s: string, i: nat)
    requires 0 <= i < |s| && !IsDigit(s[i]) && (i > 0 || (s[0] != '+' && s[0] != '-'))
    ensures StoredText(s) == Text(s)
  {
    if i > 0 {
      assert s[1..][i - 1] == s[i];
    }
  }

  /** Numeric coercion with `errors='coerce'` followed by `fillna(0)`: a number keeps
      its value and every other cell counts as 0. */
  function AsNumber(c: Cell): int
  {
    if c.Num? then c.n else 0
  }

  /** Timestamp parsing of the loader: a written timestamp gives its minute, every
      other cell gives a missing time (`NaT`). */
  function ParseTime(c: Cell): Option<int>
  {
    if c.Stamp? then Some(c.minute) else None
  }

  const MinutesPerHour: int := 60
  const MinutesPerDay: int := 1440

  /** The calendar day (`.dt.date`) a minute falls on. */
  function Day(minute: int): int
  {
    minute / MinutesPerDay
  }

  /** The hour of the day (`.dt.hour`) of a minute. */
  function HourOf(minute: int): (h: int)
    ensures 0 <= h < 24
    ensures Day(minute) * MinutesPerDay + h * MinutesPerHour <= minute < Day(minute) * MinutesPerDay + (h + 1) * MinutesPerHour
  {
    (minute % MinutesPerDay) / MinutesPerHour
  }
}

=== FILE: dashboard.dfy ===
/**
 * The dashboards. The newer revision shows, per kind, today's count and latest
 * start, and today's feeding total without pumping sessions; the older one
 * builds `dashboard_data`: the five latest records of today per kind, the
 * stock per product and the low-stock list.
 */
module Dashboard {
  import opened Wrappers
  import opened Cells
  import opened Seqs
  import opened Records
  import opened Stock
  import opened StockStatus

  /** Counted as a feeding on the dashboard and in the analysis: `Voeding_type` is
      Borst or Fles. A pumping session (Kolven), or a row without a feeding type, is not. */
  predicate IsFeed(r: Record)
  {
    r.kind == Voeding && (r.feedType == Text("Borst") || r.feedType == Text("Fles"))
  }

  /** The records `keep` selects that started on day `d`. */
  function KeepOn(keep: Record -> bool, d: int): Record -> bool
  {
    (r: Record) => keep(r) && OnDay(r, d)
  }

  function OfKind(kind: Kind): Record -> bool
  {
    (r: Record) => r.kind == kind
  }

  function AmountOf(r: Record): int
  {
    r.amount
  }

  /** Today's records of one kind, in table order. */
  function TodayOf(rs: seq<Record>, kind: Kind, today: int): seq<Record>
  {
    Filter(rs, KeepOn(OfKind(kind), today))
  }

  /** Today's feedings that count: breast and bottle only. */
  function FeedsToday(rs: seq<Record>, today: int): seq<Record>
  {
    Filter(rs, KeepOn(IsFeed, today))
  }

  /** A record is among today's records of a kind as often as the table holds it when it
      has that kind and started today, and never otherwise. */
  lemma TodayOfExact(rs: seq<Record>, kind: Kind, today: int, x: Record)
    ensures multiset(TodayOf(rs, kind, today))[x] == if x.kind == kind && OnDay(x, today) then multiset(rs)[x] else 0
  {
    FilterCount(rs, KeepOn(OfKind(kind), today), x);
  }

  /** The same for the feeding mask: breast and bottle feedings of today, each as often as
      the table holds it. */
  lemma FeedsTodayExact(rs: seq<Record>, today: int, x: Record)
    ensures multiset(FeedsToday(rs, today))[x] == if IsFeed(x) && OnDay(x, today) then multiset(rs)[x] else 0
  {
    FilterCount(rs, KeepOn(IsFeed, today), x);
  }

  /** The latest start among the records that have one. */
  function Latest(rs: seq<Record>): (t: Option<int>)
    ensures t.None? <==> forall i :: 0 <= i < |rs| ==> rs[i].start.None?
    ensures t.Some? ==> exists i :: 0 <= i < |rs| && rs[i].start == t
    ensures t.Some? ==> forall i :: 0 <= i < |rs| && rs[i].start.Some? ==> rs[i].start.value <= t.value
  {
    if |rs| == 0 then None
    else
      var rest := Latest(rs[1..]);
      assert forall i :: 1 <= i < |rs| ==> rs[1..][i - 1] == rs[i];
      if rs[0].start.None? then
        (if rest.Some? then
           assert exists i :: 1 <= i < |rs| && rs[i].start == rest by {
             var i :| 0 <= i < |rs[1..]| && rs[1..][i].start == rest;
             assert rs[i + 1].start == rest;
           }
           rest
         else rest)
      else if rest.Some? && rest.value > rs[0].start.value then
        assert exists i :: 1 <= i < |rs| && rs[i].start == rest by {
          var i :| 0 <= i < |rs[1..]| && rs[1..][i].start == rest;
          assert rs[i + 1].start == rest;
        }
        rest
      else rs[0].start
  }

  /** One dashboard tile: how many records, and the start of the latest. */
  datatype Tile = Tile(count: nat, latest: Option<int>)

  function TileOf(today: seq<Record>): Tile
  {
    Tile(|today|, Latest(today))
  }

  /** `t` is the latest start among the rows of `rs` that `keep` marks: none when no
      marked row has a start, otherwise a marked row's start that no marked row's start
      exceeds. */
  ghost predicate IsLatestAmong(t: Option<int>, rs: seq<Record>, keep: Record -> bool)
  {
    && (t.None? <==> forall i :: 0 <= i < |rs| && keep(rs[i]) ==> rs[i].start.None?)
    && (t.Some? ==> exists i :: 0 <= i < |rs| && keep(rs[i]) && rs[i].start == t)
    && (t.Some? ==> forall i :: 0 <= i < |rs| && keep(rs[i]) && rs[i].start.Some? ==> rs[i].start.value <= t.value)
  }

  /** What a tile over the rows `keep` marks shows: how many rows it marks, and the
      latest start among them. */
  ghost predicate ShowsMarked(t: Tile, rs: seq<Record>, keep: Record -> bool)
  {
    t.count == |Selected(rs, keep)| && IsLatestAmong(t.latest, rs, keep)
  }

  /** A tile built from a selection shows the marked rows of the whole table. */
  lemma TileOfMarked(rs: seq<Record>, keep: Record -> bool)
    ensures ShowsMarked(TileOf(Filter(rs, keep)), rs, keep)
  {
    var ys := Filter(rs, keep);
    FilterLength(rs, keep);
    var t := Latest(ys);
    if t.Some? {
      var j :| 0 <= j < |ys| && ys[j].start == t;
      var i :| 0 <= i < |rs| && rs[i] == ys[j];
      assert keep(rs[i]);
    }
    forall i | 0 <= i < |rs| && keep(rs[i]) && rs[i].start.Some?
      ensures t.Some? && rs[i].start.value <= t.value
    {
      var j :| 0 <= j < |ys| && ys[j] == rs[i];
    }
  }

  /** Total ml of today's counted feedings. */
  function FeedTotalToday(rs: seq<Record>, today: int): int
  {
    SumOf(FeedsToday(rs, today), AmountOf)
  }

  /** The newer revision's dashboard tiles: sleeps, feedings, diapers of today, and the
      feeding total. */
  datatype Overview7 = Overview7(sleep: Tile, feeds: Tile, diapers: Tile, feedTotal: int)

  /** A tile over records of one day shows a latest time on that day, and shows one
      exactly when it counts something. */
  lemma TileOfDay(xs: seq<Record>, today: int)
    requires forall i :: 0 <= i < |xs| ==> OnDay(xs[i], today)
    ensures TileOf(xs).latest.Some? ==> Day(TileOf(xs).latest.value) == today
    ensures TileOf(xs).count == 0 <==> TileOf(xs).latest.None?
  {
    var t := Latest(xs);
    if t.Some? {
      var i :| 0 <= i < |xs| && xs[i].start == t;
      assert OnDay(xs[i], today);
    }
    if |xs| > 0 {
      assert xs[0].start.Some?;
    }
  }

  /** The newer revision's dashboard. Without any record the dashboard has no `Type`
      column to select on and fails, so there is nothing to show. */
  function Overview(rs: seq<Record>, today: int): (o: Option<Overview7>)
    ensures o.None? <==> |rs| == 0
    ensures o.Some? ==> && ShowsMarked(o.value.sleep, rs, KeepOn(OfKind(Slaap), today))
                        && ShowsMarked(o.value.feeds, rs, KeepOn(IsFeed, today))
                        && ShowsMarked(o.value.diapers, rs, KeepOn(OfKind(Luier), today))
    ensures o.Some? ==> o.value.feedTotal == SumWhere(rs, KeepOn(IsFeed, today), AmountOf)
    ensures o.Some? ==> && (o.value.sleep.latest.Some? ==> Day(o.value.sleep.latest.value) == today)
                        && (o.value.feeds.latest.Some? ==> Day(o.value.feeds.latest.value) == today)
                        && (o.value.diapers.latest.Some? ==> Day(o.value.diapers.latest.value) == today)
    ensures o.Some? ==> && (o.value.sleep.count == 0 <==> o.value.sleep.latest.None?)
                        && (o.value.feeds.count == 0 <==> o.value.feeds.latest.None?)
                        && (o.value.diapers.count == 0 <==> o.value.diapers.latest.None?)
  {
    if |rs| == 0 then None
    else
      var sleep := TodayOf(rs, Slaap, today);
      var feeds := FeedsToday(rs, today);
      var diapers := TodayOf(rs, Luier, today);
      TileOfDay(sleep, today);
      TileOfDay(feeds, today);
      TileOfDay(diapers, today);
      TileOfMarked(rs, KeepOn(OfKind(Slaap), today));
      TileOfMarked(rs, KeepOn(IsFeed, today));
      TileOfMarked(rs, KeepOn(OfKind(Luier), today));
      FilterSum(rs, KeepOn(IsFeed, today), AmountOf);
      Some(Overview7(TileOf(sleep), TileOf(feeds), TileOf(diapers), FeedTotalToday(rs, today)))
  }

  /** A pumping session never counts toward the feeding tile or the ml total, wherever
      it stands in the table; on its own it shows an empty feeding tile and 0 ml. */
  lemma KolvenNeverCounted(a: seq<Record>, k: Record, b: seq<Record>, today: int)
    requires k.feedType == Text("Kolven")
    ensures Overview(a + [k] + b, today).Some?
    ensures |a + b| > 0 ==> && Overview(a + [k] + b, today).value.feeds == Overview(a + b, today).value.feeds
                            && Overview(a + [k] + b, today).value.feedTotal == Overview(a + b, today).value.feedTotal
    ensures |a + b| == 0 ==> && Overview(a + [k] + b, today).value.feeds == Tile(0, None)
                             && Overview(a + [k] + b, today).value.feedTotal == 0
  {
    assert !IsFeed(k) by {
      assert k.feedType != Text("Borst") && k.feedType != Text("Fles");
    }
    FilterSkips(a, k, b, KeepOn(IsFeed, today));
    if |a + b| == 0 {
      assert a + b == [];
    }
  }

  /** The feeding total is the sum of the counted feedings' amounts, split any way. */
  lemma FeedTotalSplits(a: seq<Record>, b: seq<Record>, today: int)
    ensures FeedTotalToday(a + b, today) == FeedTotalToday(a, today) + FeedTotalToday(b, today)
  {
    var p := KeepOn(IsFeed, today);
    FilterConcat(a, b, p);
    SumOfConcat(Filter(a, p), Filter(b, p), AmountOf);
  }

  // ----- the older revision's `dashboard_data` -----

  /** Sort key: the start minute (every record that reaches a sort here has one). */
  function Key(r: Record): int
  {
    if r.start.Some? then r.start.value else 0
  }

  predicate SortedDesc(s: seq<Record>)
  {
    forall i, j :: 0 <= i < j < |s| ==> Key(s[i]) >= Key(s[j])
  }

  /** A record no earlier than the head of a sorted sequence can go in front of it. */
  lemma ConsSorted(y: Record, t: seq<Record>)
    requires SortedDesc(t) && (|t| == 0 || Key(y) >= Key(t[0]))
    ensures SortedDesc([y] + t)
  {
    var r := [y] + t;
    forall i, j | 0 <= i < j < |r|
      ensures Key(r[i]) >= Key(r[j])
    {
      assert r[j] == t[j - 1];
      if i > 0 {
        assert r[i] == t[i - 1];
      } else {
        assert Key(t[0]) >= Key(t[j - 1]);
      }
    }
  }

  /** Puts `x` into a sorted sequence at its place. */
  function Insert(x: Record, s: seq<Record>): (r: seq<Record>)
    requires SortedDesc(s)
    ensures SortedDesc(r)
    ensures multiset(r) == multiset(s) + multiset{x}
    ensures |r| == |s| + 1
    ensures r[0] == x || (|s| > 0 && r[0] == s[0])
  {
    if |s| == 0 then [x]
    else if Key(x) >= Key(s[0]) then
      ConsSorted(x, s);
      [x] + s
    else
      assert s == [s[0]] + s[1..];
      var rest := Insert(x, s[1..]);
      ConsSorted(s[0], rest);
      [s[0]] + rest
  }

  /** `sort_values("Starttijd", ascending=False)`: latest first. Ties keep no promised
      order, in pandas as here. */
  function SortDesc(s: seq<Record>): (r: seq<Record>)
    ensures SortedDesc(r)
    ensures multiset(r) == multiset(s)
    ensures |r| == |s|
  {
    if |s| == 0 then []
    else
      assert s == [s[0]] + s[1..];
      Insert(s[0], SortDesc(s[1..]))
  }

  function Min(a: int, b: int): int
  {
    if a <= b then a else b
  }

  /** What `.sort_values("Starttijd", ascending=False).head(5)` of today's records of one
      kind promises: at most five of them, latest first, and none left out that is later
      than the last one shown. */
  ghost predicate IsLatestFive(l: seq<Record>, rs: seq<Record>, kind: Kind, today: int)
  {
    var m := TodayOf(rs, kind, today);
    && |l| == Min(5, |m|)
    && (forall i :: 0 <= i < |l| ==> l[i].kind == kind && OnDay(l[i], today))
    && SortedDesc(l)
    && multiset(l) <= multiset(m)
    && (forall x :: x in multiset(m) - multiset(l) ==> Key(x) <= Key(l[|l| - 1]))
  }

  /** Keeping the first `n` of a sorted arrangement of `m` keeps the latest `n`. */
  lemma {:induction false} SortedPrefix(m: seq<Record>, s: seq<Record>, n: nat)
    requires SortedDesc(s) && multiset(s) == multiset(m) && 0 < n <= |s|
    ensures SortedDesc(s[..n])
    ensures multiset(s[..n]) <= multiset(m)
    ensures forall x :: x in multiset(m) - multiset(s[..n]) ==> Key(x) <= Key(s[n - 1])
  {
    var l := s[..n];
    assert s == l + s[n..];
    assert multiset(s) == multiset(l) + multiset(s[n..]);
    forall x | x in multiset(m) - multiset(l)
      ensures Key(x) <= Key(s[n - 1])
    {
      assert x in multiset(s[n..]);
      var j :| 0 <= j < |s[n..]| && s[n..][j] == x;
      assert s[n + j] == x;
    }
  }

  /** Every record of today's selection is of the kind and dated today. */
  lemma InTodayOf(rs: seq<Record>, kind: Kind, today: int, x: Record)
    requires x in multiset(TodayOf(rs, kind, today))
    ensures x.kind == kind && OnDay(x, today)
  {
    var m := TodayOf(rs, kind, today);
    var j :| 0 <= j < |m| && m[j] == x;
  }

  function LatestFive(rs: seq<Record>, kind: Kind, today: int): (l: seq<Record>)
    ensures IsLatestFive(l, rs, kind, today)
  {
    var m := TodayOf(rs, kind, today);
    var s := SortDesc(m);
    var n := Min(5, |s|);
    if n == 0 then
      []
    else
      SortedPrefix(m, s, n);
      assert forall i :: 0 <= i < n ==> s[..n][i].kind == kind && OnDay(s[..n][i], today) by {
        forall i | 0 <= i < n
          ensures s[..n][i].kind == kind && OnDay(s[..n][i], today)
        {
          assert s[i] in multiset(s);
          InTodayOf(rs, kind, today, s[i]);
        }
      }
      s[..n]
  }

  /** What `dashboard_data` returns: the latest five per kind, the stock per product and
      the low-stock list. */
  datatype Overview5 = Overview5(
    sleep: seq<Record>, feeds: seq<Record>, diapers: seq<Record>, health: seq<Record>,
    stock: map<string, Cell>, low: seq<string>)

  /** `dashboard_data()`: nothing at all without records (the dashboard then fails on
      its first lookup). The low-stock comparison needs numeric stock columns. */
  function DashboardData(rs: seq<Record>, items: seq<Item>, today: int): (o: Option<Overview5>)
    requires |rs| > 0 ==> AllNumeric(items)
    ensures o.None? <==> |rs| == 0
    ensures o.Some? ==> && IsLatestFive(o.value.sleep, rs, Slaap, today)
                        && IsLatestFive(o.value.feeds, rs, Voeding, today)
                        && IsLatestFive(o.value.diapers, rs, Luier, today)
                        && IsLatestFive(o.value.health, rs, Gezondheid, today)
    ensures o.Some? ==> forall n :: n in o.value.low <==> LowNamed(items, n)
    ensures o.Some? ==> o.value.low == LowStock(items)
    ensures o.Some? ==> && (forall i :: 0 <= i < |items| ==> items[i].name in o.value.stock)
                        && (forall n :: n in o.value.stock ==> exists i :: 0 <= i < |items| && items[i].name == n)
                        && (forall i :: 0 <= i < |items| && LastOfName(items, i) ==> o.value.stock[items[i].name] == items[i].stock)
  {
    if |rs| == 0 then None
    else Some(Overview5(
      LatestFive(rs, Slaap, today), LatestFive(rs, Voeding, today),
      LatestFive(rs, Luier, today), LatestFive(rs, Gezondheid, today),
      StockByName(items), LowStock(items)))
  }
}

=== FILE: edits.dfy ===
/**
 * The edit forms: which record an edit targets and the `{column: value}` maps
 * each form hands to `edit_record`. The sleep and diaper maps of the newer
 * revision address the columns its forms append; the feeding and health maps
 * address the older revision's columns instead (see README, Findings), so a
 * corrected map is given next to each of them.
 */
module Edits {
  import opened Wrappers
  import opened Cells
  import opened Sheet
  import opened Records
  import opened Rows

  /** One write into a row; a column outside the row leaves it as it is. */
  function Put(row: seq<Cell>, w: (int, Cell)): (r: seq<Cell>)
    ensures |r| == |row|
  {
    if 1 <= w.0 <= |row| then row[w.0 - 1 := w.1] else row
  }

  /** A row as it reads after `updates` (1-based columns) were written to it in order. */
  function EditRow(row: seq<Cell>, updates: seq<(int, Cell)>): (r: seq<Cell>)
    ensures |r| == |row|
    decreases |updates|
  {
    if |updates| == 0 then row
    else Put(EditRow(row, updates[..|updates| - 1]), updates[|updates| - 1])
  }

  lemma EditRowSnoc(row: seq<Cell>, updates: seq<(int, Cell)>, w: (int, Cell))
    ensures EditRow(row, updates + [w]) == Put(EditRow(row, updates), w)
  {
    assert (updates + [w])[..|updates|] == updates;
  }

  lemma EditRow3(row: seq<Cell>, a: (int, Cell), b: (int, Cell), c: (int, Cell))
    ensures EditRow(row, [a, b, c]) == Put(Put(Put(row, a), b), c)
  {
    assert EditRow(row, []) == row;
    EditRowSnoc(row, [], a);
    assert [] + [a] == [a];
    EditRowSnoc(row, [a], b);
    assert [a] + [b] == [a, b];
    EditRowSnoc(row, [a, b], c);
    assert [a, b] + [c] == [a, b, c];
  }

  lemma EditRow4(row: seq<Cell>, a: (int, Cell), b: (int, Cell), c: (int, Cell), d: (int, Cell))
    ensures EditRow(row, [a, b, c, d]) == Put(Put(Put(Put(row, a), b), c), d)
  {
    EditRow3(row, a, b, c);
    EditRowSnoc(row, [a, b, c], d);
    assert [a, b, c] + [d] == [a, b, c, d];
  }

  lemma EditRow5(row: seq<Cell>, a: (int, Cell), b: (int, Cell), c: (int, Cell), d: (int, Cell), e: (int, Cell))
    ensures EditRow(row, [a, b, c, d, e]) == Put(Put(Put(Put(Put(row, a), b), c), d), e)
  {
    EditRow4(row, a, b, c, d);
    EditRowSnoc(row, [a, b, c, d], e);
    assert [a, b, c, d] + [e] == [a, b, c, d, e];
  }

  lemma EditRow6(row: seq<Cell>, a: (int, Cell), b: (int, Cell), c: (int, Cell), d: (int, Cell), e: (int, Cell), f: (int, Cell))
    ensures EditRow(row, [a, b, c, d, e, f]) == Put(Put(Put(Put(Put(Put(row, a), b), c), d), e), f)
  {
    EditRow5(row, a, b, c, d, e);
    EditRowSnoc(row, [a, b, c, d, e], f);
    assert [a, b, c, d, e] + [f] == [a, b, c, d, e, f];
  }

  /** The worksheet and the row view agree: after `edit_record` on the worksheet row of
      DataFrame index `i`, that row's cells are the edited row's cells. */
  lemma {:induction false} EditedTableCell(header: seq<Cell>, rows: seq<seq<Cell>>, i: nat,
                                           updates: seq<(int, Cell)>, j: nat)
    requires i < |rows| && j < |rows[i]|
    requires forall k :: 0 <= k < |updates| ==> 1 <= updates[k].0 <= |rows[i]|
    ensures (SheetRow(i), SheetCol(j)) in ApplyWrites(Table(header, rows), SheetRow(i), updates)
    ensures ApplyWrites(Table(header, rows), SheetRow(i), updates)[(SheetRow(i), SheetCol(j))]
            == EditRow(rows[i], updates)[j]
  {
    EditedCell(Table(header, rows), SheetRow(i), rows[i], updates, j);
  }

  /** The same on any grid: a cell of sheet row `r` that holds `row[j]` holds the edited
      row's cell once the updates are written to `r`. */
  lemma {:induction false} EditedCell(g: Grid, r: int, row: seq<Cell>, updates: seq<(int, Cell)>, j: nat)
    requires j < |row| && (r, SheetCol(j)) in g && g[(r, SheetCol(j))] == row[j]
    requires forall k :: 0 <= k < |updates| ==> 1 <= updates[k].0 <= |row|
    ensures (r, SheetCol(j)) in ApplyWrites(g, r, updates)
    ensures ApplyWrites(g, r, updates)[(r, SheetCol(j))] == EditRow(row, updates)[j]
    decreases |updates|
  {
    if |updates| > 0 {
      EditedCell(g, r, row, updates[..|updates| - 1], j);
    }
  }

  /** The older revision computes `rij_index = index + 2` and shows `df.loc[rij_index - 2]`:
      the record on screen is the one whose cells the edit addresses. */
  lemma ShownRecordIsEditedRow(header: seq<Cell>, rows: seq<seq<Cell>>, i: nat, j: nat)
    requires i < |rows| && j < |rows[i]|
    ensures SheetRow(i) - 2 == i
    ensures Table(header, rows)[(SheetRow(i), SheetCol(j))] == rows[SheetRow(i) - 2][j]
  {
  }

  /** The record the edit form picks: the first of the given kind whose start is the
      selected minute. */
  function SelectRecord(rs: seq<Record>, kind: Kind, minute: int): (o: Option<nat>)
    ensures o.Some? ==> o.value < |rs| && rs[o.value].kind == kind && rs[o.value].start == Some(minute)
    ensures o.Some? ==> forall j :: 0 <= j < o.value ==> !(rs[j].kind == kind && rs[j].start == Some(minute))
    ensures o.None? <==> forall j :: 0 <= j < |rs| ==> !(rs[j].kind == kind && rs[j].start == Some(minute))
  {
    if |rs| == 0 then None
    else if rs[0].kind == kind && rs[0].start == Some(minute) then Some(0)
    else
      var rest := SelectRecord(rs[1..], kind, minute);
      assert forall j :: 1 <= j < |rs| ==> rs[1..][j - 1] == rs[j];
      if rest.Some? then Some(rest.value + 1) else None
  }

  /** Sleep edit map of the newer revision: start, end, duration, note. */
  function SleepEdit(start: int, duur: int, note: string): seq<(int, Cell)>
  {
    [(3, Stamp(start)), (4, Stamp(start + duur)), (5, Num(duur)), (6, StoredText(note))]
  }

  /** Diaper edit map of the newer revision: start, note, diaper type. */
  function DiaperEdit(start: int, diaper: string, note: string): seq<(int, Cell)>
  {
    [(3, Stamp(start)), (6, StoredText(note)), (7, StoredText(diaper))]
  }

  /** Feeding edit map of the newer revision, as written: Borst, Kolven and Fles go to
      columns 7, 8 and 9. */
  function FeedEditAsWritten(start: int, ml: int, side: string, pumped: string, bottle: string, note: string): seq<(int, Cell)>
  {
    [(3, Stamp(start)), (5, Num(ml)), (7, StoredText(side)), (8, StoredText(pumped)), (9, StoredText(bottle)), (6, StoredText(note))]
  }

  /** Health edit map of the newer revision, as written: the measurements and remarks go
      to columns 6 to 9. */
  function HealthEditAsWritten(weight: Cell, length: Cell, temperature: Cell, remarks: string): seq<(int, Cell)>
  {
    [(6, weight), (7, length), (8, temperature), (9, StoredText(remarks))]
  }

  /** Feeding edit map addressing the columns the feeding form appends to. */
  function FeedEdit(start: int, ml: int, side: string, pumped: string, bottle: string, note: string): seq<(int, Cell)>
  {
    [(3, Stamp(start)), (5, Num(ml)), (8, StoredText(side)), (9, StoredText(pumped)), (10, StoredText(bottle)), (6, StoredText(note))]
  }

  /** Health edit map addressing the columns the health form appends to. */
  function HealthEdit(weight: Cell, length: Cell, temperature: Cell, remarks: string): seq<(int, Cell)>
  {
    [(12, weight), (13, length), (14, temperature), (15, StoredText(remarks))]
  }

  /** Sleep edit of the older revision: columns 3 to 7, start, end, duration, note, quality. */
  function SleepEditV5(start: int, duur: int, note: string, quality: string): seq<(int, Cell)>
  {
    [(3, Stamp(start)), (4, Stamp(start + duur)), (5, Num(duur)), (6, StoredText(note)), (7, StoredText(quality))]
  }

  /** Editing a sleep row gives exactly the row a fresh save of the new values writes,
      id kept: the sleep map lines up with the sleep form. */
  lemma SleepEditAligned(count: nat, start: int, duur: nat, note: string, start': int, duur': nat, note': string)
    ensures EditRow(NewRow(count, Slaap, SleepValues(start, duur, note)), SleepEdit(start', duur', note'))
            == NewRow(count, Slaap, SleepValues(start', duur', note'))
  {
    var u := SleepEdit(start', duur', note');
    EditRow4(NewRow(count, Slaap, SleepValues(start, duur, note)), u[0], u[1], u[2], u[3]);
  }

  /** Editing a diaper row gives the row a fresh save of the new values writes. */
  lemma DiaperEditAligned(count: nat, start: int, diaper: string, note: string, start': int, diaper': string, note': string)
    ensures EditRow(NewRow(count, Luier, DiaperValues(start, diaper, note)), DiaperEdit(start', diaper', note'))
            == NewRow(count, Luier, DiaperValues(start', diaper', note'))
  {
    var u := DiaperEdit(start', diaper', note');
    EditRow3(NewRow(count, Luier, DiaperValues(start, diaper, note)), u[0], u[1], u[2]);
  }

  /** The older sleep edit writes exactly the five cells after id and type, and gives the
      row a fresh save of the new values writes. */
  lemma SleepEditV5Aligned(count: nat, start: int, duur: nat, note: string, quality: string,
                           start': int, duur': nat, note': string, quality': string)
    ensures EditRow(SleepRowV5(count, start, duur, note, quality), SleepEditV5(start', duur', note', quality'))
            == SleepRowV5(count, start', duur', note', quality')
  {
    var u := SleepEditV5(start', duur', note', quality');
    EditRow5(SleepRowV5(count, start, duur, note, quality), u[0], u[1], u[2], u[3], u[4]);
  }

  /** The cells the feeding edit as written sets into a full row. */
  lemma FeedCellsAsWrittenInPlace(row: seq<Cell>, start: Cell, ml: Cell, note: Cell, side: Cell, pumped: Cell, bottle: Cell)
    requires |row| == Columns
    ensures row[2 := start][4 := ml][6 := side][7 := pumped][8 := bottle][5 := note]
            == [row[0], row[1], start, row[3], ml, note, side, pumped, bottle, row[9],
                row[10], row[11], row[12], row[13], row[14]]
  {
  }

  /** As written, the feeding edit puts the side into Type Luier, the pumped amount into
      Borst and the bottle kind into Kolven, and leaves Fles as it was. */
  lemma FeedEditMisplaced(row: seq<Cell>, start: int, ml: int, side: string, pumped: string, bottle: string, note: string)
    requires |row| == Columns
    ensures var r := Load(EditRow(row, FeedEditAsWritten(start, ml, side, pumped, bottle, note)));
            && r.diaper == StoredText(side)
            && r.side == StoredText(pumped)
            && r.pumped == StoredText(bottle)
            && r.bottle == Load(row).bottle
  {
    var u := FeedEditAsWritten(start, ml, side, pumped, bottle, note);
    EditRow6(row, u[0], u[1], u[2], u[3], u[4], u[5]);
    FeedCellsAsWrittenInPlace(row, Stamp(start), Num(ml), StoredText(note), StoredText(side), StoredText(pumped), StoredText(bottle));
  }

  /** The cells the health edit as written sets into a full row. */
  lemma HealthCellsAsWrittenInPlace(row: seq<Cell>, weight: Cell, length: Cell, temperature: Cell, remarks: Cell)
    requires |row| == Columns
    ensures row[5 := weight][6 := length][7 := temperature][8 := remarks]
            == [row[0], row[1], row[2], row[3], row[4], weight, length, temperature, remarks, row[9],
                row[10], row[11], row[12], row[13], row[14]]
  {
  }

  /** As written, the health edit puts the weight into Opmerking and the remarks into
      Kolven, and leaves the measurement columns as they were. */
  lemma HealthEditMisplaced(row: seq<Cell>, weight: Cell, length: Cell, temperature: Cell, remarks: string)
    requires |row| == Columns
    ensures var r := Load(EditRow(row, HealthEditAsWritten(weight, length, temperature, remarks)));
            && r.note == weight && r.diaper == length && r.side == temperature && r.pumped == StoredText(remarks)
            && r.weight == Load(row).weight && r.length == Load(row).length
            && r.temperature == Load(row).temperature && r.remarks == Load(row).remarks
  {
    var u := HealthEditAsWritten(weight, length, temperature, remarks);
    EditRow4(row, u[0], u[1], u[2], u[3]);
    HealthCellsAsWrittenInPlace(row, weight, length, temperature, StoredText(remarks));
  }

  /** The cells the corrected feeding edit writes, set into a full row. */
  lemma FeedCellsInPlace(row: seq<Cell>, start: Cell, ml: Cell, note: Cell, side: Cell, pumped: Cell, bottle: Cell)
    requires |row| == Columns
    ensures row[2 := start][4 := ml][7 := side][8 := pumped][9 := bottle][5 := note]
            == [row[0], row[1], start, row[3], ml, note, row[6], side, pumped, bottle,
                row[10], row[11], row[12], row[13], row[14]]
  {
  }

  /** The corrected feeding edit, cell by cell, on a full row. */
  lemma FeedEditCells(row: seq<Cell>, start: int, ml: int, side: string, pumped: string, bottle: string, note: string)
    requires |row| == Columns
    ensures EditRow(row, FeedEdit(start, ml, side, pumped, bottle, note))
            == [row[0], row[1], Stamp(start), row[3], Num(ml), StoredText(note), row[6], StoredText(side),
                StoredText(pumped), StoredText(bottle), row[10], row[11], row[12], row[13], row[14]]
  {
    var u := FeedEdit(start, ml, side, pumped, bottle, note);
    EditRow6(row, u[0], u[1], u[2], u[3], u[4], u[5]);
    FeedCellsInPlace(row, Stamp(start), Num(ml), StoredText(note), StoredText(side), StoredText(pumped), StoredText(bottle));
  }

  /** The corrected feeding edit lands every value in its own field and leaves the type,
      the id and the health columns alone. */
  lemma FeedEditFixed(row: seq<Cell>, start: int, ml: int, side: string, pumped: string, bottle: string, note: string)
    requires |row| == Columns
    ensures var r := Load(EditRow(row, FeedEdit(start, ml, side, pumped, bottle, note)));
            && r.start == Some(start) && r.amount == ml && r.note == StoredText(note)
            && r.side == StoredText(side) && r.pumped == StoredText(pumped) && r.bottle == StoredText(bottle)
            && r.id == Load(row).id && r.kind == Load(row).kind && r.feedType == Load(row).feedType
            && r.diaper == Load(row).diaper && r.end == Load(row).end && r.weight == Load(row).weight
            && r.length == Load(row).length && r.temperature == Load(row).temperature
            && r.remarks == Load(row).remarks
  {
    FeedEditCells(row, start, ml, side, pumped, bottle, note);
  }

  /** The cells the corrected health edit sets into a full row. */
  lemma HealthCellsInPlace(row: seq<Cell>, weight: Cell, length: Cell, temperature: Cell, remarks: Cell)
    requires |row| == Columns
    ensures row[11 := weight][12 := length][13 := temperature][14 := remarks]
            == [row[0], row[1], row[2], row[3], row[4], row[5], row[6], row[7], row[8], row[9],
                row[10], weight, length, temperature, remarks]
  {
  }

  /** The corrected health edit lands the measurements and remarks in their own fields
      and leaves the rest alone. */
  lemma HealthEditFixed(row: seq<Cell>, weight: Cell, length: Cell, temperature: Cell, remarks: string)
    requires |row| == Columns
    ensures var r := Load(EditRow(row, HealthEdit(weight, length, temperature, remarks)));
            && r.weight == weight && r.length == length && r.temperature == temperature
            && r.remarks == StoredText(remarks)
            && r.id == Load(row).id && r.kind == Load(row).kind && r.start == Load(row).start
            && r.note == Load(row).note && r.diaper == Load(row).diaper && r.side == Load(row).side
            && r.pumped == Load(row).pumped && r.bottle == Load(row).bottle
            && r.feedType == Load(row).feedType && r.end == Load(row).end && r.amount == Load(row).amount
  {
    var u := HealthEdit(weight, length, temperature, remarks);
    EditRow4(row, u[0], u[1], u[2], u[3]);
    HealthCellsInPlace(row, weight, length, temperature, StoredText(remarks));
  }
}

=== FILE: forms.dfy ===
/**
 * What the forms' save buttons do to the worksheets: `add_record`, the diaper
 * form that also takes one diaper from the inventory (both revisions), and the
 * inventory tab's restock and removal buttons.
 */
module Forms {
  import opened Wrappers
  import opened Cells
  import opened Sheet
  import opened RecordIds
  import opened Records
  import opened Rows
  import opened Stock

  /** The records worksheet's data rows after a save, and `add_record`'s return value. */
  datatype Saved = Saved(rows: seq<seq<Cell>>, ok: bool)

  /** `add_record(record_type, values)`: no worksheet or a failed `append_row` leaves the
      sheet as it was and answers false; otherwise the new row goes below the last one.
      `loaded` is the number of records in the (cached) table the id is drawn from. */
  function AddRecord(rows: seq<seq<Cell>>, available: bool, appendOk: bool, loaded: nat,
                     kind: Kind, values: seq<Cell>): (s: Saved)
    ensures s.ok <==> available && appendOk
    ensures !s.ok ==> s.rows == rows
    ensures s.ok ==>
              && |s.rows| == |rows| + 1 && s.rows[..|rows|] == rows
              && |s.rows[|rows|]| == |values| + 2
              && s.rows[|rows|][0] == Text(RecordId(loaded))
              && KindOf(s.rows[|rows|][1]) == kind
              && s.rows[|rows|][2..] == values
  {
    KindLabelRoundTrip(kind);
    if !available || !appendOk then Saved(rows, false)
    else Saved(rows + [NewRow(loaded, kind, values)], true)
  }

  /** Row `i` carries the id the `i`-th save handed out. */
  predicate IdsInOrder(rows: seq<seq<Cell>>)
  {
    forall i :: 0 <= i < |rows| ==> |rows[i]| > 0 && rows[i][0] == Text(RecordId(i))
  }

  /** No two rows share an id. */
  predicate DistinctIds(rows: seq<seq<Cell>>)
  {
    && (forall i :: 0 <= i < |rows| ==> |rows[i]| > 0)
    && (forall i, j :: 0 <= i < j < |rows| ==> rows[i][0] != rows[j][0])
  }

  lemma IdsInOrderAreDistinct(rows: seq<seq<Cell>>)
    requires IdsInOrder(rows)
    ensures DistinctIds(rows)
  {
    forall i, j | 0 <= i < j < |rows|
      ensures rows[i][0] != rows[j][0]
    {
      if rows[i][0] == rows[j][0] {
        assert RecordId(i) == RecordId(j);
        RecordIdInjective(i, j);
      }
    }
  }

  /** With an up-to-date record count, a save keeps the ids in order, so they stay distinct. */
  lemma FreshCountKeepsIdsDistinct(rows: seq<seq<Cell>>, kind: Kind, values: seq<Cell>)
    requires IdsInOrder(rows)
    ensures IdsInOrder(AddRecord(rows, true, true, |rows|, kind, values).rows)
    ensures DistinctIds(AddRecord(rows, true, true, |rows|, kind, values).rows)
  {
    var s := AddRecord(rows, true, true, |rows|, kind, values);
    forall i | 0 <= i < |s.rows|
      ensures |s.rows[i]| > 0 && s.rows[i][0] == Text(RecordId(i))
    {
      if i < |rows| {
        assert s.rows[i] == s.rows[..|rows|][i];
      }
    }
    IdsInOrderAreDistinct(s.rows);
  }

  /** A count read before the last save (the table is cached for up to a minute) hands out
      an id the sheet already holds. */
  lemma StaleCountRepeatsId(rows: seq<seq<Cell>>, loaded: nat, kind: Kind, values: seq<Cell>)
    requires IdsInOrder(rows) && loaded < |rows|
    ensures var s := AddRecord(rows, true, true, loaded, kind, values);
            s.rows[|rows|][0] == s.rows[loaded][0]
    ensures !DistinctIds(AddRecord(rows, true, true, loaded, kind, values).rows)
  {
    var s := AddRecord(rows, true, true, loaded, kind, values);
    assert s.rows[loaded] == s.rows[..|rows|][loaded] == rows[loaded];
  }

  // ----- the diaper form -----

  /** The outcome of the diaper form: the records sheet, the inventory, the stock cell
      written (if any) and `add_record`'s answer. */
  datatype DiaperSaved = DiaperSaved(rows: seq<seq<Cell>>, inventory: Inventory,
                                     stockWrite: Option<CellWrite>, ok: bool)

  /** The newer revision's diaper save: append the record, and only when that succeeded
      take one diaper from `Luiers`. */
  function SaveDiaper(rows: seq<seq<Cell>>, available: bool, appendOk: bool, loaded: nat,
                      start: int, diaper: string, note: string,
                      inv: Inventory, inventoryAvailable: bool): (s: DiaperSaved)
    ensures s.ok <==> available && appendOk
    ensures s.rows == AddRecord(rows, available, appendOk, loaded, Luier, DiaperValues(start, diaper, note)).rows
    ensures !s.ok ==> s.inventory == inv && s.stockWrite.None?
    ensures s.stockWrite.Some? ==>
              && s.ok && inventoryAvailable && Has(inv.items, "Luiers")
              && s.stockWrite.value.row == SheetRow(FirstIndex(inv.items, "Luiers"))
              && s.stockWrite.value.col == SheetCol(inv.stockColumn)
              && |s.inventory.items| == |inv.items|
              && (forall i :: 0 <= i < |inv.items| && inv.items[i].name == "Luiers" ==>
                    s.inventory.items[i].stock == Num(ClampAtZero(AsNumber(inv.items[i].stock) - 1)))
              && s.stockWrite.value.value == s.inventory.items[FirstIndex(inv.items, "Luiers")].stock
              && s.stockWrite.value.value
                 == Num(ClampAtZero(AsNumber(inv.items[FirstIndex(inv.items, "Luiers")].stock) - 1))
    ensures (s.ok && inventoryAvailable && |inv.items| > 0 && Has(inv.items, "Luiers")
             && !OtherRowNotNumeric(inv.items, "Luiers")) ==> s.stockWrite.Some?
    ensures s.stockWrite.Some? <==>
              s.ok && inventoryAvailable && Has(inv.items, "Luiers") && !OtherRowNotNumeric(inv.items, "Luiers")
  {
    var a := AddRecord(rows, available, appendOk, loaded, Luier, DiaperValues(start, diaper, note));
    if !a.ok then DiaperSaved(a.rows, inv, None, false)
    else
      var u := UpdateStock(inv, inventoryAvailable, "Luiers", -1);
      if u.Updated? then DiaperSaved(a.rows, u.after, Some(u.write), true)
      else DiaperSaved(a.rows, inv, None, true)
  }

  /** The older revision's diaper save: append the seven-cell row with amount 1, then take
      exactly one diaper from `Luiers`, with no clamp. The inventory lookup has no guard,
      so `Luiers` must be present, with a numeric stock, once an inventory is loaded. */
  function SaveDiaperV5(rows: seq<seq<Cell>>, loaded: nat, start: int, note: string, diaper: string,
                        inv: Inventory, inventoryAvailable: bool): (s: DiaperSaved)
    requires inventoryAvailable && |inv.items| > 0 ==> Has(inv.items, "Luiers") && MatchesNumeric(inv.items, "Luiers")
    ensures s.ok
    ensures |s.rows| == |rows| + 1 && s.rows[..|rows|] == rows
    ensures var row := s.rows[|rows|];
            |row| == 7 && row[0] == Text(RecordId(loaded)) && KindOf(row[1]) == Luier
            && row[2] == Stamp(start) && row[3] == Empty && row[4] == Num(1)
            && row[5] == StoredText(note) && row[6] == StoredText(diaper)
    ensures !inventoryAvailable || |inv.items| == 0 <==> s.stockWrite.None?
    ensures s.stockWrite.Some? ==>
              && |s.inventory.items| == |inv.items|
              && (forall i :: 0 <= i < |inv.items| && inv.items[i].name == "Luiers" ==>
                    s.inventory.items[i].stock == Num(inv.items[i].stock.n - 1))
              && (forall i :: 0 <= i < |inv.items| && inv.items[i].name != "Luiers" ==>
                    s.inventory.items[i] == inv.items[i])
              && s.stockWrite.value.row == SheetRow(FirstIndex(inv.items, "Luiers"))
              && s.stockWrite.value.col == SheetCol(inv.stockColumn)
              && s.stockWrite.value.value == Num(inv.items[FirstIndex(inv.items, "Luiers")].stock.n - 1)
  {
    KindLabelRoundTrip(Luier);
    var u := UpdateStockV5(inv, inventoryAvailable, "Luiers", -1);
    var rows' := rows + [DiaperRowV5(loaded, start, note, diaper)];
    Appended(rows, DiaperRowV5(loaded, start, note, diaper));
    if u.Updated? then DiaperSaved(rows', u.after, Some(u.write), true)
    else DiaperSaved(rows', inv, None, true)
  }

  lemma Appended(rows: seq<seq<Cell>>, row: seq<Cell>)
    ensures |rows + [row]| == |rows| + 1 && (rows + [row])[..|rows|] == rows && (rows + [row])[|rows|] == row
  {
    assert (rows + [row])[..|rows|] == rows;
  }

  /** Over the whole save, the older revision's diaper count and the stock it spends move
      together: one row with amount 1 in, one diaper out. */
  lemma DiaperSaveBalances(rows: seq<seq<Cell>>, loaded: nat, start: int, note: string, diaper: string,
                           inv: Inventory, i: nat)
    requires i < |inv.items| && inv.items[i].name == "Luiers" && MatchesNumeric(inv.items, "Luiers")
    ensures var s := SaveDiaperV5(rows, loaded, start, note, diaper, inv, true);
            AsNumber(s.rows[|rows|][4]) + s.inventory.items[i].stock.n == inv.items[i].stock.n
  {
    var s := SaveDiaperV5(rows, loaded, start, note, diaper, inv, true);
    assert s.stockWrite.Some?;
  }

  /** `load_data` caches the inventory as well: every run within the minute starts from
      the same table. Two stock changes of one product in that window both write its
      first row's cell, and the second writes the cached stock plus its own change only,
      so the sheet loses the first change. */
  lemma CachedStockLosesUpdate(inv: Inventory, p: string, d1: int, d2: int, g: Grid)
    requires Has(inv.items, p) && !OtherRowNotNumeric(inv.items, p)
    requires AsNumber(inv.items[FirstIndex(inv.items, p)].stock) + d2 >= 0
    requires d1 != 0
    ensures var u1 := UpdateStock(inv, true, p, d1);
            var u2 := UpdateStock(inv, true, p, d2);
            var before := AsNumber(inv.items[FirstIndex(inv.items, p)].stock);
            && u1.Updated? && u2.Updated?
            && u2.write.row == u1.write.row && u2.write.col == u1.write.col
            && Apply(Apply(g, u1.write), u2.write)[(u1.write.row, u1.write.col)] == Num(before + d2)
            && Apply(Apply(g, u1.write), u2.write)[(u1.write.row, u1.write.col)] != Num(before + d1 + d2)
  {
  }

  /** Against a table re-read after the first change, the second change builds on it:
      the cell ends at the old stock plus both changes. */
  lemma FreshStockKeepsBoth(inv: Inventory, p: string, d1: int, d2: int, g: Grid)
    requires Has(inv.items, p) && !OtherRowNotNumeric(inv.items, p)
    requires AsNumber(inv.items[FirstIndex(inv.items, p)].stock) + d1 >= 0
    requires AsNumber(inv.items[FirstIndex(inv.items, p)].stock) + d1 + d2 >= 0
    ensures var u1 := UpdateStock(inv, true, p, d1);
            var before := AsNumber(inv.items[FirstIndex(inv.items, p)].stock);
            && u1.Updated?
            && var u2 := UpdateStock(u1.after, true, p, d2);
               && u2.Updated?
               && u2.write.row == u1.write.row && u2.write.col == u1.write.col
               && Apply(Apply(g, u1.write), u2.write)[(u1.write.row, u1.write.col)] == Num(before + d1 + d2)
  {
    var u1 := UpdateStock(inv, true, p, d1);
    var first := FirstIndex(inv.items, p);
    assert u1.after.items[first].name == p;
    assert Has(u1.after.items, p);
    assert FirstIndex(u1.after.items, p) == first by {
      var f := FirstIndex(u1.after.items, p);
      assert inv.items[f].name == p;
    }
  }

  // ----- the inventory tab -----

  /** The restock log sheet after a restock, and `update_voorraad`'s outcome. */
  datatype Restocked = Restocked(update: Update, log: seq<seq<Cell>>)

  /** `Voorraad bijvullen`: add `n` to the product, then log `[now, product, n]` when the
      log worksheet exists. The log row is written whatever the update did, unless the
      update raised, which ends the run before the log line. */
  function Restock(inv: Inventory, inventoryAvailable: bool, log: seq<seq<Cell>>, logAvailable: bool,
                   p: string, n: nat, now: int): (r: Restocked)
    ensures r.update.Updated? <==> inventoryAvailable && Has(inv.items, p) && !OtherRowNotNumeric(inv.items, p)
    ensures r.update.Updated? ==>
              && |r.update.after.items| == |inv.items|
              && forall i :: 0 <= i < |inv.items| && inv.items[i].name == p ==>
                   && r.update.after.items[i].stock == Num(ClampAtZero(AsNumber(inv.items[i].stock) + n))
                   && r.update.after.items[i].stock.n >= AsNumber(inv.items[i].stock)
    ensures r.update.NotFound? <==> inventoryAvailable && |inv.items| > 0 && !Has(inv.items, p)
    ensures r.update.Crashed? <==> inventoryAvailable && Has(inv.items, p) && OtherRowNotNumeric(inv.items, p)
    ensures r.update.Skipped? <==> !inventoryAvailable || |inv.items| == 0
    ensures r.update.Updated? ==>
              && r.update.write.row == SheetRow(FirstIndex(inv.items, p))
              && r.update.write.col == SheetCol(inv.stockColumn)
              && r.update.write.value == r.update.after.items[FirstIndex(inv.items, p)].stock
              && r.update.write.value == Num(ClampAtZero(AsNumber(inv.items[FirstIndex(inv.items, p)].stock) + n))
    ensures logAvailable && !r.update.Crashed? ==> r.log == log + [[Stamp(now), Text(p), Num(n)]]
    ensures !logAvailable || r.update.Crashed? ==> r.log == log
  {
    var u := UpdateStock(inv, inventoryAvailable, p, n);
    if logAvailable && !u.Crashed? then Restocked(u, log + [[Stamp(now), Text(p), Num(n)]])
    else Restocked(u, log)
  }

  /** A product missing from the inventory is still logged as restocked. */
  lemma UnknownProductStillLogged(inv: Inventory, log: seq<seq<Cell>>, p: string, n: nat, now: int)
    requires |inv.items| > 0 && !Has(inv.items, p)
    ensures Restock(inv, true, log, true, p, n, now).update == NotFound
    ensures |Restock(inv, true, log, true, p, n, now).log| == |log| + 1
  {
  }

  /** `Voorraad verminderen`: take `n` from the product, never below zero; a removal no
      larger than the stock is exact. */
  function RemoveStock(inv: Inventory, inventoryAvailable: bool, p: string, n: nat): (u: Update)
    ensures u.Updated? <==> inventoryAvailable && Has(inv.items, p) && !OtherRowNotNumeric(inv.items, p)
    ensures u.Updated? ==>
              && |u.after.items| == |inv.items|
              && forall i :: 0 <= i < |inv.items| && inv.items[i].name == p ==>
                   && (n <= AsNumber(inv.items[i].stock) ==> u.after.items[i].stock == Num(AsNumber(inv.items[i].stock) - n))
                   && (n > AsNumber(inv.items[i].stock) ==> u.after.items[i].stock == Num(0))
    ensures u.NotFound? <==> inventoryAvailable && |inv.items| > 0 && !Has(inv.items, p)
    ensures u.Crashed? <==> inventoryAvailable && Has(inv.items, p) && OtherRowNotNumeric(inv.items, p)
    ensures u.Skipped? <==> !inventoryAvailable || |inv.items| == 0
    ensures u.Updated? ==>
              && u.write.row == SheetRow(FirstIndex(inv.items, p))
              && u.write.col == SheetCol(inv.stockColumn)
              && u.write.value == u.after.items[FirstIndex(inv.items, p)].stock
              && u.write.value == Num(ClampAtZero(AsNumber(inv.items[FirstIndex(inv.items, p)].stock) - n))
  {
    UpdateStock(inv, inventoryAvailable, p, -(n as int))
  }
}

=== FILE: record_ids.dfy ===
/**
 * Record ids: `f"R{n:03}"`, the letter R followed by the record number in
 * decimal, zero-padded to at least three digits, with its reading back as a
 * number.
 */
module RecordIds {

  predicate IsDigit(c: char)
  {
    '0' <= c <= '9'
  }

  predicate AllDigits(s: string)
  {
    forall i :: 0 <= i < |s| ==> IsDigit(s[i])
  }

  function DigitChar(d: nat): (c: char)
    requires d < 10
  {
    (('0' as int) + d) as char
  }

  function DigitValue(c: char): nat
    requires IsDigit(c)
  {
    (c as int) - ('0' as int)
  }

  /** The decimal notation of `n`, without leading zeros. */
  function Digits(n: nat): (s: string)
    ensures 1 <= |s| && AllDigits(s)
    ensures s[0] != '0' || n == 0
    decreases n
  {
    if n < 10 then [DigitChar(n)] else Digits(n / 10) + [DigitChar(n % 10)]
  }

  /** The number a string of decimal digits denotes. */
  function ParseDigits(s: string): nat
    requires AllDigits(s)
    decreases |s|
  {
    if |s| == 0 then 0 else ParseDigits(s[..|s| - 1]) * 10 + DigitValue(s[|s| - 1])
  }

  function Zeros(k: nat): (s: string)
    ensures |s| == k && AllDigits(s)
  {
    seq(k, _ => '0')
  }

  /** Python's `{n:0w}` for a natural number: left-pads the notation with zeros to width `w`. */
  function PadLeft(s: string, w: nat): (r: string)
    requires AllDigits(s)
    ensures AllDigits(r)
  {
    if |s| >= w then s else Zeros(w - |s|) + s
  }

  /** The id `add_record` gives the record that follows `count` loaded records. */
  function RecordId(count: nat): string
  {
    "R" + PadLeft(Digits(count + 1), 3)
  }

  lemma {:induction false} ParseDigits_Digits(n: nat)
    ensures ParseDigits(Digits(n)) == n
    decreases n
  {
    if n >= 10 {
      var s := Digits(n / 10) + [DigitChar(n % 10)];
      assert s[..|s| - 1] == Digits(n / 10);
      ParseDigits_Digits(n / 10);
    }
  }

  lemma {:induction false} ZerosDenoteZero(k: nat)
    ensures ParseDigits(Zeros(k)) == 0
  {
    if k > 0 {
      assert Zeros(k)[..k - 1] == Zeros(k - 1);
      ZerosDenoteZero(k - 1);
    }
  }

  /** Leading zeros do not change the number denoted. */
  lemma {:induction false} LeadingZeros(k: nat, s: string)
    requires AllDigits(s)
    ensures AllDigits(Zeros(k) + s)
    ensures ParseDigits(Zeros(k) + s) == ParseDigits(s)
    decreases |s|
  {
    var z := Zeros(k) + s;
    if |s| == 0 {
      assert z == Zeros(k);
      ZerosDenoteZero(k);
    } else {
      assert z[..|z| - 1] == Zeros(k) + s[..|s| - 1];
      LeadingZeros(k, s[..|s| - 1]);
    }
  }

  /** Every id is R followed by at least three digits that read back as `count + 1`. */
  lemma RecordIdShape(count: nat)
    ensures |RecordId(count)| >= 4 && RecordId(count)[0] == 'R'
    ensures AllDigits(RecordId(count)[1..])
    ensures ParseDigits(RecordId(count)[1..]) == count + 1
  {
    var d := Digits(count + 1);
    assert RecordId(count)[1..] == PadLeft(d, 3);
    ParseDigits_Digits(count + 1);
    if |d| < 3 {
      LeadingZeros(3 - |d|, d);
    }
  }

  /** Different record counts give different ids. */
  lemma RecordIdInjective(a: nat, b: nat)
    requires RecordId(a) == RecordId(b)
    ensures a == b
  {
    RecordIdShape(a);
    RecordIdShape(b);
  }

  function Pow10(k: nat): nat
  {
    if k == 0 then 1 else 10 * Pow10(k - 1)
  }

  lemma {:induction false} DigitsLength(n: nat, k: nat)
    requires 1 <= k && n < Pow10(k)
    ensures |Digits(n)| <= k
    decreases n
  {
    if n >= 10 {
      DigitsLength(n / 10, k - 1);
    }
  }

  /** Below a thousand records the id has exactly three digits after the R. */
  lemma ShortIds(count: nat)
    requires count + 1 < 1000
    ensures |RecordId(count)| == 4
  {
    DigitsLength(count + 1, 3);
  }
}

=== FILE: records.dfy ===
/**
 * The `BabyRecords` worksheet: the record kinds, the fifteen columns of the
 * newer revision, and how the loader reads one worksheet row back into a
 * record.
 */
module Records {
  import opened Wrappers
  import opened Cells

  /** The `Type` column. `Unknown` stands for any label the forms never write. */
  datatype Kind = Slaap | Voeding | Luier | Gezondheid | Unknown

  function Label(k: Kind): string
  {
    match k
    case Slaap => "Slaap"
    case Voeding => "Voeding"
    case Luier => "Luier"
    case Gezondheid => "Gezondheid"
    case Unknown => ""
  }

  function KindOf(c: Cell): Kind
  {
    if c == Text("Slaap") then Slaap
    else if c == Text("Voeding") then Voeding
    else if c == Text("Luier") then Luier
    else if c == Text("Gezondheid") then Gezondheid
    else Unknown
  }

  /** Reading the written label gives the kind back. */
  lemma KindLabelRoundTrip(k: Kind)
    ensures KindOf(Text(Label(k))) == k
  {
  }

  /** One record as the loader holds it, one field per column of the newer layout:
      ID, Type, Starttijd, Eindtijd, Hoeveelheid, Opmerking, Type Luier, Borst,
      Kolven, Fles, Voeding_type, Gewicht, Lengte, Temperatuur, Opmerkingen / ziekten.
      Times are parsed (missing when they do not parse) and the amount is coerced to
      a number (0 when it is not one). */
  datatype Record = Record(
    id: Cell,
    kind: Kind,
    start: Option<int>,
    end: Option<int>,
    amount: int,
    note: Cell,
    diaper: Cell,
    side: Cell,
    pumped: Cell,
    bottle: Cell,
    feedType: Cell,
    weight: Cell,
    length: Cell,
    temperature: Cell,
    remarks: Cell)

  /** Number of columns of the newer layout. */
  const Columns: nat := 15

  /** Cell `j` (0-based) of a row; `get_all_records` reads a missing trailing cell as empty. */
  function At(row: seq<Cell>, j: nat): Cell
  {
    if j < |row| then row[j] else Empty
  }

  /** The loader's reading of one worksheet row of the newer layout. */
  function Load(row: seq<Cell>): Record
  {
    Record(
      At(row, 0), KindOf(At(row, 1)), ParseTime(At(row, 2)), ParseTime(At(row, 3)),
      AsNumber(At(row, 4)), At(row, 5), At(row, 6), At(row, 7), At(row, 8), At(row, 9),
      At(row, 10), At(row, 11), At(row, 12), At(row, 13), At(row, 14))
  }

  predicate OnDay(r: Record, day: int)
  {
    r.start.Some? && Day(r.start.value) == day
  }
}

=== FILE: rows.dfy ===
/**
 * The rows the forms append: `[id, type] + values` with thirteen values in the
 * newer revision, and the shorter rows of the older revision's sleep and
 * diaper forms.
 */
module Rows {
  import opened Wrappers
  import opened Cells
  import opened RecordIds
  import opened Records

  /** `add_record`'s row: the new id, the type label, then the form's values. */
  function NewRow(count: nat, kind: Kind, values: seq<Cell>): seq<Cell>
  {
    [Text(RecordId(count)), Text(Label(kind))] + values
  }

  /** `n` empty cells. */
  function Blanks(n: nat): (r: seq<Cell>)
    ensures |r| == n && forall i :: 0 <= i < n ==> r[i] == Empty
  {
    seq(n, _ => Empty)
  }

  /** Sleep form: start, end = start + `duur` minutes, amount = `duur`, the note, the rest empty. */
  function SleepValues(start: int, duur: nat, note: string): seq<Cell>
  {
    [Stamp(start), Stamp(start + duur), Num(duur), StoredText(note)] + Blanks(9)
  }

  /** The three feeding forms and what each asks for. */
  datatype FeedInput =
    | Borst(side: string, ml: nat, note: string)
    | Fles(bottle: string, ml: nat, note: string)
    | Kolven(side: string, pumped: nat, note: string)

  function FeedLabel(f: FeedInput): string
  {
    match f
    case Borst(_, _, _) => "Borst"
    case Fles(_, _, _) => "Fles"
    case Kolven(_, _, _) => "Kolven"
  }

  /** Feeding form: the amount only for breast and bottle (blank for pumping), the side
      for breast and pumping, the pumped amount for pumping, the bottle kind for bottle,
      and the feeding type. */
  function FeedValues(start: int, f: FeedInput): seq<Cell>
  {
    var amount := if f.Kolven? then Empty else Num(f.ml);
    var side := if f.Fles? then Empty else StoredText(f.side);
    var pumped := if f.Kolven? then Num(f.pumped) else Empty;
    var bottle := if f.Fles? then StoredText(f.bottle) else Empty;
    [Stamp(start), Empty, amount, StoredText(f.note), Empty, side, pumped, bottle, Text(FeedLabel(f))] + Blanks(4)
  }

  /** Diaper form: start, the note and the diaper type. */
  function DiaperValues(start: int, diaper: string, note: string): seq<Cell>
  {
    [Stamp(start), Empty, Empty, StoredText(note), StoredText(diaper)] + Blanks(8)
  }

  /** Health form: the measurements (decimal numbers, kept as opaque cells) and the remarks. */
  function HealthValues(now: int, weight: Cell, length: Cell, temperature: Cell, remarks: string): seq<Cell>
  {
    [Stamp(now)] + Blanks(8) + [weight, length, temperature, StoredText(remarks)]
  }

  /** Every form of the newer revision appends a full fifteen-column row. */
  lemma FormRowsHaveFifteenColumns(count: nat, start: int, duur: nat, f: FeedInput, diaper: string,
                                   weight: Cell, length: Cell, temperature: Cell, text: string)
    ensures |NewRow(count, Slaap, SleepValues(start, duur, text))| == Columns
    ensures |NewRow(count, Voeding, FeedValues(start, f))| == Columns
    ensures |NewRow(count, Luier, DiaperValues(start, diaper, text))| == Columns
    ensures |NewRow(count, Gezondheid, HealthValues(start, weight, length, temperature, text))| == Columns
  {
  }

  /** A saved sleep loads back with its start, an end `duur` minutes later (never before
      the start) and `duur` as its amount. */
  lemma SleepRoundTrip(count: nat, start: int, duur: nat, note: string)
    ensures var r := Load(NewRow(count, Slaap, SleepValues(start, duur, note)));
            && r.id == Text(RecordId(count)) && r.kind == Slaap
            && r.start == Some(start) && r.end == Some(start + duur)
            && r.end.value >= r.start.value
            && r.amount == duur && r.note == StoredText(note)
  {
  }

  /** A saved feeding loads back with its start and feeding type; breast and bottle
      feedings carry their ml as amount, a pumping session has amount 0 and keeps its
      volume in the Kolven column. */
  lemma FeedRoundTrip(count: nat, start: int, f: FeedInput)
    ensures var r := Load(NewRow(count, Voeding, FeedValues(start, f)));
            && r.kind == Voeding && r.start == Some(start) && r.end == None
            && r.feedType == Text(FeedLabel(f)) && r.note == StoredText(f.note)
            && (f.Kolven? ==> r.amount == 0 && r.pumped == Num(f.pumped) && r.side == StoredText(f.side))
            && (f.Borst? ==> r.amount == f.ml && r.side == StoredText(f.side))
            && (f.Fles? ==> r.amount == f.ml && r.bottle == StoredText(f.bottle))
  {
  }

  /** A saved diaper loads back with its start, type and note, and no amount. */
  lemma DiaperRoundTrip(count: nat, start: int, diaper: string, note: string)
    ensures var r := Load(NewRow(count, Luier, DiaperValues(start, diaper, note)));
            && r.kind == Luier && r.start == Some(start) && r.amount == 0
            && r.diaper == StoredText(diaper) && r.note == StoredText(note)
  {
  }

  /** A saved health entry loads back with its time and measurements. */
  lemma HealthRoundTrip(count: nat, now: int, weight: Cell, length: Cell, temperature: Cell, remarks: string)
    ensures var r := Load(NewRow(count, Gezondheid, HealthValues(now, weight, length, temperature, remarks)));
            && r.kind == Gezondheid && r.start == Some(now) && r.amount == 0
            && r.weight == weight && r.length == length && r.temperature == temperature
            && r.remarks == StoredText(remarks)
  {
  }

  /** The older revision's sleep row: id, type, start, end, duration, note, quality. */
  function SleepRowV5(count: nat, start: int, duur: nat, note: string, quality: string): seq<Cell>
  {
    [Text(RecordId(count)), Text(Label(Slaap)), Stamp(start), Stamp(start + duur), Num(duur), StoredText(note), StoredText(quality)]
  }

  /** The older revision's diaper row: id, type, start, no end, amount 1, note, diaper type. */
  function DiaperRowV5(count: nat, start: int, note: string, diaper: string): seq<Cell>
  {
    [Text(RecordId(count)), Text(Label(Luier)), Stamp(start), Empty, Num(1), StoredText(note), StoredText(diaper)]
  }
}

=== FILE: seqs.dfy ===
/** Order-preserving selection and summation over sequences, shared by the dashboard and the analysis views. */
module Seqs {

  /** The elements of `xs` that satisfy `p`, in their original order (a boolean mask on a DataFrame). */
  function Filter<T>(xs: seq<T>, p: T -> bool): (ys: seq<T>)
    ensures |ys| <= |xs|
    ensures forall i :: 0 <= i < |ys| ==> p(ys[i])
    ensures forall i :: 0 <= i < |ys| ==> ys[i] in xs
    ensures forall i :: 0 <= i < |xs| && p(xs[i]) ==> xs[i] in ys
    ensures multiset(ys) <= multiset(xs)
  {
    if |xs| == 0 then []
    else
      assert xs == [xs[0]] + xs[1..];
      (if p(xs[0]) then [xs[0]] else []) + Filter(xs[1..], p)
  }

  /** Selection distributes over concatenation, so it keeps the table order. */
  lemma {:induction false} FilterConcat<T>(a: seq<T>, b: seq<T>, p: T -> bool)
    ensures Filter(a + b, p) == Filter(a, p) + Filter(b, p)
  {
    if |a| == 0 {
      assert a + b == b;
    } else {
      assert (a + b)[0] == a[0];
      assert (a + b)[1..] == a[1..] + b;
      FilterConcat(a[1..], b, p);
    }
  }

  /** An element that fails the mask never shows up in the selection, wherever it stands. */
  lemma {:induction false} FilterSkips<T>(a: seq<T>, x: T, b: seq<T>, p: T -> bool)
    requires !p(x)
    ensures Filter(a + [x] + b, p) == Filter(a + b, p)
  {
    if |a| == 0 {
      assert a + [x] + b == [x] + b && a + b == b;
      assert ([x] + b)[0] == x && ([x] + b)[1..] == b;
    } else {
      assert (a + [x] + b)[0] == a[0] && (a + [x] + b)[1..] == a[1..] + [x] + b;
      assert (a + b)[0] == a[0] && (a + b)[1..] == a[1..] + b;
      FilterSkips(a[1..], x, b, p);
    }
  }

  /** The selection keeps every element the mask accepts exactly as often as `xs` holds
      it, and no other element. */
  lemma {:induction false} FilterCount<T>(xs: seq<T>, p: T -> bool, x: T)
    ensures multiset(Filter(xs, p))[x] == if p(x) then multiset(xs)[x] else 0
  {
    if |xs| > 0 {
      var head := if p(xs[0]) then [xs[0]] else [];
      FilterCount(xs[1..], p, x);
      HeadTail(xs);
      CountStep(xs[0], xs[1..], head, Filter(xs[1..], p), x, p(xs[0]), p(x));
    }
  }

  /** One step of the count: the head is kept or dropped together with every equal element. */
  lemma CountStep<T>(x0: T, tail: seq<T>, head: seq<T>, rest: seq<T>, x: T, keep0: bool, keepx: bool)
    requires head == if keep0 then [x0] else []
    requires multiset(rest)[x] == if keepx then multiset(tail)[x] else 0
    requires x0 == x ==> keep0 == keepx
    ensures multiset(head + rest)[x] == if keepx then (multiset([x0]) + multiset(tail))[x] else 0
  {
  }

  lemma HeadTail<T>(xs: seq<T>)
    requires |xs| > 0
    ensures multiset(xs) == multiset([xs[0]]) + multiset(xs[1..])
  {
    assert xs == [xs[0]] + xs[1..];
  }

  /** Sum of `f` over the elements of `xs`. */
  function SumOf<T>(xs: seq<T>, f: T -> int): int
  {
    if |xs| == 0 then 0 else f(xs[0]) + SumOf(xs[1..], f)
  }

  lemma {:induction false} SumOfConcat<T>(a: seq<T>, b: seq<T>, f: T -> int)
    ensures SumOf(a + b, f) == SumOf(a, f) + SumOf(b, f)
  {
    if |a| == 0 {
      assert a + b == b;
    } else {
      assert (a + b)[0] == a[0];
      assert (a + b)[1..] == a[1..] + b;
      SumOfConcat(a[1..], b, f);
    }
  }

  /** The positions of `xs` whose element satisfies `p`: the rows a boolean mask marks. */
  function Selected<T>(xs: seq<T>, p: T -> bool): set<int>
  {
    set i | 0 <= i < |xs| && p(xs[i])
  }

  /** The selection holds one element per marked position. */
  lemma {:induction false} FilterLength<T>(xs: seq<T>, p: T -> bool)
    ensures |Filter(xs, p)| == |Selected(xs, p)|
  {
    if |xs| > 0 {
      var init, x := xs[..|xs| - 1], xs[|xs| - 1];
      assert xs == init + [x];
      FilterLength(init, p);
      FilterLengthStep(init, x, p);
    }
  }

  lemma FilterLengthStep<T>(init: seq<T>, x: T, p: T -> bool)
    requires |Filter(init, p)| == |Selected(init, p)|
    ensures |Filter(init + [x], p)| == |Selected(init + [x], p)|
  {
    FilterSnoc(init, x, p);
    SelectedSnoc(init, x, p);
    if p(x) {
      AddFresh(Selected(init, p), |init|);
    }
  }

  lemma FilterSnoc<T>(init: seq<T>, x: T, p: T -> bool)
    ensures Filter(init + [x], p) == Filter(init, p) + (if p(x) then [x] else [])
  {
    FilterConcat(init, [x], p);
    FilterOne(x, p);
  }

  lemma FilterOne<T>(x: T, p: T -> bool)
    ensures Filter([x], p) == if p(x) then [x] else []
  {
    assert [x][1..] == [];
  }

  lemma AddFresh(s: set<int>, k: int)
    requires k !in s
    ensures |s + {k}| == |s| + 1
  {
  }

  /** One more element adds its own position when the mask accepts it, and nothing else. */
  lemma SelectedSnoc<T>(init: seq<T>, x: T, p: T -> bool)
    ensures Selected(init + [x], p) == Selected(init, p) + (if p(x) then {|init|} else {})
  {
    var xs := init + [x];
    forall i | 0 <= i < |init|
      ensures xs[i] == init[i]
    {
    }
  }

  /** Reference definition: the sum of `f` over the elements `p` accepts, in one pass. */
  function SumWhere<T>(xs: seq<T>, p: T -> bool, f: T -> int): int
  {
    if |xs| == 0 then 0 else (if p(xs[0]) then f(xs[0]) else 0) + SumWhere(xs[1..], p, f)
  }

  /** Summing the selection is summing over the marked elements. */
  lemma {:induction false} FilterSum<T>(xs: seq<T>, p: T -> bool, f: T -> int)
    ensures SumOf(Filter(xs, p), f) == SumWhere(xs, p, f)
  {
    if |xs| > 0 {
      FilterSum(xs[1..], p, f);
      var rest := Filter(xs[1..], p);
      if p(xs[0]) {
        assert ([xs[0]] + rest)[1..] == rest;
      } else {
        assert [] + rest == rest;
      }
    }
  }
}

=== FILE: sheet.dfy ===
/**
 * A worksheet as a map from 1-based (row, column) positions to cells, the
 * offset arithmetic that turns a DataFrame position into a worksheet
 * position, and `edit_record`'s ordered, non-transactional cell writes.
 */
module Sheet {
  import opened Wrappers
  import opened Cells

  /** A worksheet: 1-based (row, column) to cell. A position that is absent is blank. */
  type Grid = map<(int, int), Cell>

  /** One `update_cell(row, col, value)` call. */
  datatype CellWrite = CellWrite(row: int, col: int, value: Cell)

  /** The worksheet row of the record at DataFrame index `index`: worksheet rows
      count from 1 and row 1 holds the header. */
  function SheetRow(index: nat): int
  {
    index + 2
  }

  /** The worksheet column of the DataFrame column at position `position`: worksheet
      columns count from 1. */
  function SheetCol(position: nat): int
  {
    position + 1
  }

  function Apply(g: Grid, w: CellWrite): Grid
  {
    g[(w.row, w.col) := w.value]
  }

  /** Puts `cells` into row `r`, the j-th cell into column j+1, as `append_row` does
      once the row is chosen. Nothing outside that row moves. */
  function WriteRow(g: Grid, r: int, cells: seq<Cell>): (g': Grid)
    ensures forall j :: 0 <= j < |cells| ==> (r, SheetCol(j)) in g' && g'[(r, SheetCol(j))] == cells[j]
    ensures forall k :: k in g' <==> k in g || (k.0 == r && 1 <= k.1 <= |cells|)
    ensures forall k :: k in g && (k.0 != r || k.1 < 1 || |cells| < k.1) ==> g'[k] == g[k]
    decreases |cells|
  {
    if |cells| == 0 then g
    else WriteRow(g, r, cells[..|cells| - 1])[(r, |cells|) := cells[|cells| - 1]]
  }

  /** The cells a table occupies: the header's cells in row 1, and under it each data
      row's cells, as far as that row reaches. */
  predicate TableCell(header: seq<Cell>, rows: seq<seq<Cell>>, k: (int, int))
  {
    || (k.0 == 1 && 1 <= k.1 <= |header|)
    || (2 <= k.0 <= |rows| + 1 && 1 <= k.1 <= |rows[k.0 - 2]|)
  }

  /** A table worksheet as `get_all_records` reads it: the header in row 1 and the
      data rows below it, one worksheet row per DataFrame index. */
  function Table(header: seq<Cell>, rows: seq<seq<Cell>>): (g: Grid)
    ensures forall j :: 0 <= j < |header| ==> (1, SheetCol(j)) in g && g[(1, SheetCol(j))] == header[j]
    ensures forall i, j :: 0 <= i < |rows| && 0 <= j < |rows[i]| ==>
              (SheetRow(i), SheetCol(j)) in g && g[(SheetRow(i), SheetCol(j))] == rows[i][j]
    ensures forall k :: k in g ==> 1 <= k.0 <= |rows| + 1 && 1 <= k.1
    ensures forall k :: k in g ==> TableCell(header, rows, k)
    decreases |rows|
  {
    if |rows| == 0 then WriteRow(map[], 1, header)
    else
      var before := Table(header, rows[..|rows| - 1]);
      assert forall i :: 0 <= i < |rows| - 1 ==> rows[..|rows| - 1][i] == rows[i];
      TableCellSnoc(header, rows);
      WriteRow(before, SheetRow(|rows| - 1), rows[|rows| - 1])
  }

  /** One more data row adds exactly its own cells to those the table occupies. */
  lemma TableCellSnoc(header: seq<Cell>, rows: seq<seq<Cell>>)
    requires |rows| > 0
    ensures forall k :: TableCell(header, rows, k) <==>
              TableCell(header, rows[..|rows| - 1], k)
              || (k.0 == SheetRow(|rows| - 1) && 1 <= k.1 <= |rows[|rows| - 1]|)
  {
    forall k
      ensures TableCell(header, rows, k) <==>
                TableCell(header, rows[..|rows| - 1], k)
                || (k.0 == SheetRow(|rows| - 1) && 1 <= k.1 <= |rows[|rows| - 1]|)
    {
      if 2 <= k.0 <= |rows| {
        assert rows[..|rows| - 1][k.0 - 2] == rows[k.0 - 2];
      }
    }
  }

  /** `append_row` on a table lands the new row right under the last one, at the
      worksheet row that the new DataFrame index maps to. */
  lemma AppendLandsAtNextIndex(header: seq<Cell>, rows: seq<seq<Cell>>, row: seq<Cell>)
    ensures Table(header, rows + [row]) == WriteRow(Table(header, rows), SheetRow(|rows|), row)
  {
    assert (rows + [row])[..|rows|] == rows;
  }

  /** The cells `edit_record` has written after applying `updates` in order to row `row`. */
  function ApplyWrites(g: Grid, row: int, updates: seq<(int, Cell)>): Grid
    decreases |updates|
  {
    if |updates| == 0 then g
    else
      var last := updates[|updates| - 1];
      ApplyWrites(g, row, updates[..|updates| - 1])[(row, last.0) := last.1]
  }

  /** True when some update addresses column `col`. */
  predicate Writes(updates: seq<(int, Cell)>, col: int)
  {
    exists i :: 0 <= i < |updates| && updates[i].0 == col
  }

  /** The keys of a Python dict: no column is written twice. */
  predicate DistinctColumns(updates: seq<(int, Cell)>)
  {
    forall i, j :: 0 <= i < j < |updates| ==> updates[i].0 != updates[j].0
  }

  /** A cell outside the edited row, or in a column the updates do not name, is untouched. */
  lemma {:induction false} ApplyWritesFrame(g: Grid, row: int, updates: seq<(int, Cell)>, k: (int, int))
    requires k.0 != row || !Writes(updates, k.1)
    ensures k in ApplyWrites(g, row, updates) <==> k in g
    ensures k in g ==> ApplyWrites(g, row, updates)[k] == g[k]
    decreases |updates|
  {
    if |updates| > 0 {
      var init := updates[..|updates| - 1];
      assert k != (row, updates[|updates| - 1].0);
      ApplyWritesFrame(g, row, init, k);
    }
  }

  /** With distinct columns, every update's value is what its cell holds afterwards. */
  lemma {:induction false} ApplyWritesLand(g: Grid, row: int, updates: seq<(int, Cell)>, i: nat)
    requires DistinctColumns(updates)
    requires i < |updates|
    ensures (row, updates[i].0) in ApplyWrites(g, row, updates)
    ensures ApplyWrites(g, row, updates)[(row, updates[i].0)] == updates[i].1
    decreases |updates|
  {
    var n := |updates|;
    if i < n - 1 {
      var init := updates[..n - 1];
      assert init[i] == updates[i];
      assert DistinctColumns(init);
      ApplyWritesLand(g, row, init, i);
      assert updates[n - 1].0 != updates[i].0;
    }
  }

  /** How many writes `edit_record` completes: none without a worksheet, otherwise
      every write before the first one the store rejects. */
  function Completed(available: bool, n: nat, failAt: Option<nat>): (k: nat)
    ensures k <= n
  {
    if !available then 0
    else if failAt.Some? && failAt.value < n then failAt.value
    else n
  }

  /** `edit_record(row_index, updates)`: writes the `(column, value)` pairs in order
      to row `row`. `failAt` is the position of the first write the store rejects,
      if any; the writes before it stay applied (there is no rollback) and the
      result is false. Without a worksheet nothing is written. */
  method EditRecord(g: Grid, available: bool, row: int, updates: seq<(int, Cell)>, failAt: Option<nat>)
    returns (g': Grid, ok: bool)
    ensures ok <==> available && (failAt.None? || failAt.value >= |updates|)
    ensures g' == ApplyWrites(g, row, updates[..Completed(available, |updates|, failAt)])
    ensures forall k: (int, int) :: (k.0 != row || !Writes(updates, k.1)) ==> (k in g' <==> k in g)
    ensures forall k: (int, int) :: k in g && (k.0 != row || !Writes(updates, k.1)) ==> g'[k] == g[k]
  {
    if !available {
      assert updates[..0] == [];
      return g, false;
    }
    g' := g;
    ok := true;
    var i := 0;
    while i < |updates|
      invariant 0 <= i <= |updates|
      invariant failAt.Some? ==> i <= failAt.value
      invariant g' == ApplyWrites(g, row, updates[..i])
    {
      if failAt == Some(i) {
        ok := false;
        break;
      }
      assert updates[..i + 1][..i] == updates[..i];
      g' := g'[(row, updates[i].0) := updates[i].1];
      i := i + 1;
    }
    assert updates[..Completed(available, |updates|, failAt)] == updates[..i];
    forall k: (int, int) | k.0 != row || !Writes(updates, k.1)
      ensures k in g' <==> k in g
      ensures k in g ==> g'[k] == g[k]
    {
      ApplyWritesFrame(g, row, updates[..i], k);
    }
  }
}

=== FILE: stock.dfy ===
/**
 * The `Voorraad` (inventory) worksheet and the two revisions of
 * `update_voorraad`: the newer one, which clamps at 0 and guards against an
 * unknown product, and the older one, which adds without either.
 */
module Stock {
  import opened Cells
  import opened Sheet

  /** One inventory row: `Productnaam`, `Actuele voorraad`, `Minimum voorraad`. */
  datatype Item = Item(name: string, stock: Cell, minimum: Cell)

  /** The inventory table as loaded: its rows in worksheet order (DataFrame index i
      is `items[i]`) and the header position of the `Actuele voorraad` column. */
  datatype Inventory = Inventory(stockColumn: nat, items: seq<Item>)

  /** What one `update_voorraad` call did.
      `Skipped`: no table or no worksheet, a warning and nothing else.
      `NotFound`: no row carries the product name, an error and nothing else.
      `Crashed`: the column-wide comparison with 0 raised before anything was written.
      `Updated`: the in-memory table afterwards and the single cell write sent to the worksheet. */
  datatype Update = Skipped | NotFound | Crashed | Updated(after: Inventory, write: CellWrite)

  predicate Has(items: seq<Item>, p: string)
  {
    exists i :: 0 <= i < |items| && items[i].name == p
  }

  /** `mask[mask].index[0]`: the first row carrying the product name. */
  function FirstIndex(items: seq<Item>, p: string): (i: nat)
    requires Has(items, p)
    ensures i < |items| && items[i].name == p
    ensures forall j :: 0 <= j < i ==> items[j].name != p
  {
    if items[0].name == p then 0
    else
      assert forall j :: 1 <= j < |items| ==> items[1..][j - 1] == items[j];
      1 + FirstIndex(items[1..], p)
  }

  /** `max(0, n)`. */
  function ClampAtZero(n: int): int
  {
    if n < 0 then 0 else n
  }

  /** Adds `delta` to the numeric reading of every matching row's stock
      (`pd.to_numeric(...).fillna(0) + hoeveelheid`, then `astype(int)`). */
  function AddToMatches(items: seq<Item>, p: string, delta: int): seq<Item>
  {
    seq(|items|, i requires 0 <= i < |items| =>
      if items[i].name == p then items[i].(stock := Num(AsNumber(items[i].stock) + delta)) else items[i])
  }

  /** `voorraad.loc[voorraad['Actuele voorraad'] < 0, 'Actuele voorraad'] = 0`:
      resets EVERY negative stock of the in-memory column, not only the updated one. */
  function ResetNegatives(items: seq<Item>): seq<Item>
  {
    seq(|items|, i requires 0 <= i < |items| =>
      if items[i].stock.Num? && items[i].stock.n < 0 then items[i].(stock := Num(0)) else items[i])
  }

  /** A row whose stock is not a number makes the column an object column, and
      comparing its text with 0 raises. The matched rows hold numbers by then. */
  predicate OtherRowNotNumeric(items: seq<Item>, p: string)
  {
    exists j :: 0 <= j < |items| && items[j].name != p && !items[j].stock.Num?
  }

  /** `update_voorraad(productnaam, hoeveelheid)` of the newer revision. */
  function UpdateStock(inv: Inventory, available: bool, p: string, delta: int): (u: Update)
    ensures !available || |inv.items| == 0 ==> u == Skipped
    ensures available && |inv.items| > 0 && !Has(inv.items, p) ==> u == NotFound
    ensures u.Crashed? <==> available && Has(inv.items, p) && OtherRowNotNumeric(inv.items, p)
    ensures u.Updated? <==> available && Has(inv.items, p) && !OtherRowNotNumeric(inv.items, p)
    ensures u.Updated? ==>
              && available && Has(inv.items, p)
              && u.after.stockColumn == inv.stockColumn
              && |u.after.items| == |inv.items|
              && (forall i :: 0 <= i < |inv.items| ==>
                    && u.after.items[i].name == inv.items[i].name
                    && u.after.items[i].minimum == inv.items[i].minimum
                    && u.after.items[i].stock.Num?
                    && u.after.items[i].stock.n >= 0)
              && (forall i :: 0 <= i < |inv.items| && inv.items[i].name == p ==>
                    u.after.items[i].stock == Num(ClampAtZero(AsNumber(inv.items[i].stock) + delta)))
              && (forall i :: 0 <= i < |inv.items| && inv.items[i].name != p ==>
                    u.after.items[i].stock == Num(ClampAtZero(inv.items[i].stock.n)))
              && u.write.row == SheetRow(FirstIndex(inv.items, p))
              && u.write.col == SheetCol(inv.stockColumn)
              && u.write.value == u.after.items[FirstIndex(inv.items, p)].stock
  {
    if !available || |inv.items| == 0 then Skipped
    else if !Has(inv.items, p) then NotFound
    else if OtherRowNotNumeric(inv.items, p) then Crashed
    else
      var after := ResetNegatives(AddToMatches(inv.items, p, delta));
      var first := FirstIndex(inv.items, p);
      UpdatedRows(inv.items, p, delta);
      Updated(Inventory(inv.stockColumn, after),
              CellWrite(SheetRow(first), SheetCol(inv.stockColumn), after[first].stock))
  }

  /** Row by row, the newer revision's in-memory table after the add and the reset. */
  lemma UpdatedRows(items: seq<Item>, p: string, delta: int)
    requires !OtherRowNotNumeric(items, p)
    ensures var after := ResetNegatives(AddToMatches(items, p, delta));
            && |after| == |items|
            && (forall i :: 0 <= i < |items| ==>
                  && after[i].name == items[i].name
                  && after[i].minimum == items[i].minimum
                  && after[i].stock.Num?
                  && after[i].stock.n >= 0)
            && (forall i :: 0 <= i < |items| && items[i].name == p ==>
                  after[i].stock == Num(ClampAtZero(AsNumber(items[i].stock) + delta)))
            && (forall i :: 0 <= i < |items| && items[i].name != p ==>
                  after[i].stock == Num(ClampAtZero(items[i].stock.n)))
  {
    var added := AddToMatches(items, p, delta);
    var after := ResetNegatives(added);
    forall i | 0 <= i < |items|
      ensures after[i].name == items[i].name && after[i].minimum == items[i].minimum
      ensures after[i].stock.Num? && after[i].stock.n >= 0
      ensures items[i].name == p ==> after[i].stock == Num(ClampAtZero(AsNumber(items[i].stock) + delta))
      ensures items[i].name != p ==> after[i].stock == Num(ClampAtZero(items[i].stock.n))
    {
      if items[i].name != p {
        assert items[i].stock.Num?;
      }
    }
  }

  /** The older revision reads the column as numbers: `+=` on a text cell raises. */
  predicate MatchesNumeric(items: seq<Item>, p: string)
  {
    forall i :: 0 <= i < |items| && items[i].name == p ==> items[i].stock.Num?
  }

  /** `update_voorraad(productnaam, hoeveelheid)` of the older revision: adds the delta
      to every matching row with no clamp. There is no guard before `index[0]`, so the
      product must be present once a table and a worksheet exist. */
  function UpdateStockV5(inv: Inventory, available: bool, p: string, delta: int): (u: Update)
    requires available && |inv.items| > 0 ==> Has(inv.items, p) && MatchesNumeric(inv.items, p)
    ensures !available || |inv.items| == 0 <==> u == Skipped
    ensures u.Updated? <==> available && |inv.items| > 0
    ensures u.Updated? ==>
              && u.after.stockColumn == inv.stockColumn
              && |u.after.items| == |inv.items|
              && (forall i :: 0 <= i < |inv.items| && inv.items[i].name == p ==>
                    u.after.items[i] == inv.items[i].(stock := Num(inv.items[i].stock.n + delta)))
              && (forall i :: 0 <= i < |inv.items| && inv.items[i].name != p ==>
                    u.after.items[i] == inv.items[i])
              && u.write == CellWrite(SheetRow(FirstIndex(inv.items, p)), SheetCol(inv.stockColumn),
                                      Num(inv.items[FirstIndex(inv.items, p)].stock.n + delta))
  {
    if !available || |inv.items| == 0 then Skipped
    else
      var after := AddToMatches(inv.items, p, delta);
      var first := FirstIndex(inv.items, p);
      Updated(Inventory(inv.stockColumn, after),
              CellWrite(SheetRow(first), SheetCol(inv.stockColumn), after[first].stock))
  }

  /** The `Actuele voorraad` cells of the worksheet, as the table says they are. */
  function StockCells(inv: Inventory): Grid
  {
    map i | 0 <= i < |inv.items| :: (SheetRow(i), SheetCol(inv.stockColumn)) := inv.items[i].stock
  }

  lemma StockCellAt(inv: Inventory, i: nat)
    requires i < |inv.items|
    ensures (SheetRow(i), SheetCol(inv.stockColumn)) in StockCells(inv)
    ensures StockCells(inv)[(SheetRow(i), SheetCol(inv.stockColumn))] == inv.items[i].stock
  {
  }

  /** The stock column holds one cell per item, at rows 2 to `|items| + 1`. */
  lemma StockCellsKeys(inv: Inventory, k: (int, int))
    ensures k in StockCells(inv) <==> k.1 == SheetCol(inv.stockColumn) && 2 <= k.0 < |inv.items| + 2
    ensures k in StockCells(inv) ==> StockCells(inv)[k] == inv.items[k.0 - 2].stock
  {
    if k.1 == SheetCol(inv.stockColumn) && 2 <= k.0 < |inv.items| + 2 {
      StockCellAt(inv, k.0 - 2);
    }
  }

  predicate Unique(items: seq<Item>, p: string)
  {
    forall i, j :: 0 <= i < j < |items| && items[i].name == p ==> items[j].name != p
  }

  predicate NonNegative(items: seq<Item>)
  {
    forall i :: 0 <= i < |items| ==> items[i].stock.Num? && items[i].stock.n >= 0
  }

  /** The single cell write brings the worksheet in line with the in-memory table
      when the product occurs once and no other stock was negative: no other
      product's stored stock is written, and none needs to be. */
  lemma {:induction false} WritePersistsUpdate(inv: Inventory, p: string, delta: int)
    requires Has(inv.items, p) && Unique(inv.items, p) && NonNegative(inv.items)
    ensures UpdateStock(inv, true, p, delta).Updated?
    ensures Apply(StockCells(inv), UpdateStock(inv, true, p, delta).write)
            == StockCells(UpdateStock(inv, true, p, delta).after)
  {
    var u := UpdateStock(inv, true, p, delta);
    var first := FirstIndex(inv.items, p);
    forall i | 0 <= i < |inv.items| && i != first
      ensures u.after.items[i].stock == inv.items[i].stock
    {
      assert inv.items[i].name != p by {
        if i > first {
          assert inv.items[first].name == p;
        }
      }
    }
    SingleWriteSuffices(inv, u.after, first);
  }

  /** When two tables differ in row `first`'s stock only, writing that one cell turns
      the first table's stock column into the second's. */
  lemma SingleWriteSuffices(before: Inventory, after: Inventory, first: nat)
    requires before.stockColumn == after.stockColumn && |after.items| == |before.items|
    requires first < |before.items|
    requires forall i :: 0 <= i < |before.items| && i != first ==> after.items[i].stock == before.items[i].stock
    ensures Apply(StockCells(before), CellWrite(SheetRow(first), SheetCol(before.stockColumn), after.items[first].stock))
            == StockCells(after)
  {
    var lhs := Apply(StockCells(before), CellWrite(SheetRow(first), SheetCol(before.stockColumn), after.items[first].stock));
    var rhs := StockCells(after);
    forall k: (int, int)
      ensures k in lhs <==> k in rhs
      ensures k in lhs ==> lhs[k] == rhs[k]
    {
      StockCellsKeys(before, k);
      StockCellsKeys(after, k);
    }
    assert lhs.Keys == rhs.Keys;
  }

  /** Both revisions agree whenever the clamp has nothing to do: numeric, non-negative
      stocks and a result that stays non-negative. */
  lemma {:induction false} RevisionsAgree(inv: Inventory, p: string, delta: int)
    requires Has(inv.items, p) && NonNegative(inv.items)
    requires forall i :: 0 <= i < |inv.items| && inv.items[i].name == p ==> inv.items[i].stock.n + delta >= 0
    ensures UpdateStock(inv, true, p, delta) == UpdateStockV5(inv, true, p, delta)
  {
    var u := UpdateStock(inv, true, p, delta);
    var v := UpdateStockV5(inv, true, p, delta);
    assert u.after.items == v.after.items;
  }

  /** The clamp quirk: a row that was already negative is reset to 0 in memory by an
      update of another product, while the worksheet keeps its negative stock. */
  lemma ClampOfOtherRowNotPersisted(inv: Inventory, p: string, delta: int, j: nat)
    requires Has(inv.items, p) && !OtherRowNotNumeric(inv.items, p)
    requires j < |inv.items| && inv.items[j].name != p && inv.items[j].stock.n < 0
    ensures UpdateStock(inv, true, p, delta).Updated?
    ensures UpdateStock(inv, true, p, delta).after.items[j].stock == Num(0)
    ensures Apply(StockCells(inv), UpdateStock(inv, true, p, delta).write)[(SheetRow(j), SheetCol(inv.stockColumn))]
            == inv.items[j].stock
  {
    var u := UpdateStock(inv, true, p, delta);
    assert u.Updated?;
    var first := FirstIndex(inv.items, p);
    assert SheetRow(first) != SheetRow(j);
    StockCellAt(inv, j);
  }

  /** The older revision lets a stock go below zero where the newer one stops at 0. */
  lemma OlderRevisionGoesNegative(inv: Inventory, p: string, delta: int, i: nat)
    requires i < |inv.items| && inv.items[i].name == p && MatchesNumeric(inv.items, p)
    requires inv.items[i].stock.n + delta < 0
    ensures UpdateStockV5(inv, true, p, delta).after.items[i].stock.n < 0
    ensures UpdateStock(inv, true, p, delta).Updated? ==>
              UpdateStock(inv, true, p, delta).after.items[i].stock == Num(0)
  {
  }
}

=== FILE: stock_status.dfy ===
/**
 * Stock status: the three colour bands written two ways (inventory view of
 * the newer revision, dashboard of the older one), and the dashboard's
 * low-stock list and stock-by-name lookup.
 */
module StockStatus {
  import opened Cells
  import opened Stock

  datatype Colour = Green | Orange | Red

  /** The bands: red at or below the minimum, orange up to two above it, green beyond. */
  predicate InBand(c: Colour, val: int, min: int)
  {
    match c
    case Red => val <= min
    case Orange => min < val <= min + 2
    case Green => min + 2 < val
  }

  /** Inventory view colour: green above `min + 2`, else orange above `min`, else red. */
  function Colour7(val: int, min: int): (c: Colour)
    ensures InBand(c, val, min)
  {
    if val > min + 2 then Green else if val > min then Orange else Red
  }

  /** Dashboard colour: starts green, red at or below the minimum, else orange at or
      below `min + 2`. */
  function Colour5(val: int, min: int): (c: Colour)
    ensures InBand(c, val, min)
  {
    if val <= min then Red else if val <= min + 2 then Orange else Green
  }

  /** Every (stock, minimum) pair lies in exactly one band. */
  lemma BandsPartition(val: int, min: int)
    ensures InBand(Red, val, min) || InBand(Orange, val, min) || InBand(Green, val, min)
    ensures forall c: Colour, d: Colour :: InBand(c, val, min) && InBand(d, val, min) ==> c == d
  {
  }

  /** The two ways of writing the colour agree on every pair. */
  lemma ColoursAgree(val: int, min: int)
    ensures Colour7(val, min) == Colour5(val, min)
  {
    BandsPartition(val, min);
  }

  /** The inventory view's colour of one row. A stock or a minimum that is not a number
      makes `int(NaN)` raise; the handler then shows the row as 0 against 0. */
  function DisplayedColour(item: Item): (c: Colour)
    ensures item.stock.Num? && item.minimum.Num? ==> InBand(c, item.stock.n, item.minimum.n)
    ensures !(item.stock.Num? && item.minimum.Num?) ==> c == Red
  {
    if item.stock.Num? && item.minimum.Num? then Colour7(item.stock.n, item.minimum.n)
    else Colour7(0, 0)
  }

  /** The older revision compares the stock and minimum columns directly: a text cell
      in either makes the comparison raise. */
  predicate AllNumeric(items: seq<Item>)
  {
    forall i :: 0 <= i < |items| ==> items[i].stock.Num? && items[i].minimum.Num?
  }

  predicate IsLow(item: Item)
    requires item.stock.Num? && item.minimum.Num?
  {
    item.stock.n <= item.minimum.n
  }

  /** Some row named `n` is at or below its minimum. */
  predicate LowNamed(items: seq<Item>, n: string)
    requires AllNumeric(items)
  {
    exists i :: 0 <= i < |items| && items[i].name == n && IsLow(items[i])
  }

  /** `laag_voorraad`: the names of the rows whose stock is at or below their minimum. */
  function LowStock(items: seq<Item>): (names: seq<string>)
    requires AllNumeric(items)
    ensures |names| <= |items|
    ensures forall n :: n in names <==> LowNamed(items, n)
    decreases |items|, 1
  {
    if |items| == 0 then []
    else
      var names := (if IsLow(items[0]) then [items[0].name] else []) + LowStock(items[1..]);
      LowStockStep(items, names);
      names
  }

  /** The first row's name, when it is low, followed by the rest of the table's list. */
  lemma LowStockStep(items: seq<Item>, names: seq<string>)
    requires |items| > 0 && AllNumeric(items)
    requires names == (if IsLow(items[0]) then [items[0].name] else []) + LowStock(items[1..])
    ensures |names| <= |items|
    ensures forall n :: n in names <==> LowNamed(items, n)
    decreases |items|, 0
  {
    var tail := items[1..];
    var rest := LowStock(tail);
    forall n
      ensures n in names <==> LowNamed(items, n)
    {
      LowNamedCons(items, n);
    }
  }

  /** A low row named `n` is the first row or a low row of the rest. */
  lemma LowNamedCons(items: seq<Item>, n: string)
    requires |items| > 0 && AllNumeric(items)
    ensures AllNumeric(items[1..])
    ensures LowNamed(items, n) <==> (items[0].name == n && IsLow(items[0])) || LowNamed(items[1..], n)
  {
    var tail := items[1..];
    if LowNamed(items, n) {
      var i :| 0 <= i < |items| && items[i].name == n && IsLow(items[i]);
      if i > 0 {
        assert tail[i - 1] == items[i];
      }
    }
    if LowNamed(tail, n) {
      var i :| 0 <= i < |tail| && tail[i].name == n && IsLow(tail[i]);
      assert items[i + 1] == tail[i];
    }
  }

  lemma AllNumericConcat(a: seq<Item>, b: seq<Item>)
    requires AllNumeric(a) && AllNumeric(b)
    ensures AllNumeric(a + b)
    ensures |a| > 0 ==> AllNumeric(a[1..])
  {
    forall i | 0 <= i < |a + b|
      ensures (a + b)[i].stock.Num? && (a + b)[i].minimum.Num?
    {
      if i < |a| {
        assert (a + b)[i] == a[i];
      } else {
        assert (a + b)[i] == b[i - |a|];
      }
    }
    if |a| > 0 {
      forall i | 0 <= i < |a| - 1
        ensures a[1..][i].stock.Num? && a[1..][i].minimum.Num?
      {
        assert a[1..][i] == a[i + 1];
      }
    }
  }

  /** The low-stock list keeps table order: it distributes over splitting the table. */
  lemma {:induction false} LowStockConcat(a: seq<Item>, b: seq<Item>)
    requires AllNumeric(a) && AllNumeric(b)
    ensures AllNumeric(a + b)
    ensures LowStock(a + b) == LowStock(a) + LowStock(b)
  {
    AllNumericConcat(a, b);
    if |a| == 0 {
      assert a + b == b;
    } else {
      AllNumericConcat(a[1..], b);
      assert (a + b)[0] == a[0];
      assert (a + b)[1..] == a[1..] + b;
      LowStockConcat(a[1..], b);
    }
  }

  /** A product is on the low-stock list exactly when the dashboard shows it red. */
  lemma LowIsRed(item: Item)
    requires item.stock.Num? && item.minimum.Num?
    ensures IsLow(item) <==> Colour5(item.stock.n, item.minimum.n) == Red
  {
  }

  /** No later row shares row `i`'s name. */
  predicate LastOfName(items: seq<Item>, i: int)
    requires 0 <= i < |items|
  {
    forall j :: i < j < |items| ==> items[j].name != items[i].name
  }

  /** `dict(zip(Productnaam, Actuele voorraad))`: a later row with the same name wins. */
  function StockByName(items: seq<Item>): (m: map<string, Cell>)
    ensures forall i :: 0 <= i < |items| ==> items[i].name in m
    ensures forall n :: n in m ==> exists i :: 0 <= i < |items| && items[i].name == n
    ensures forall i :: 0 <= i < |items| && LastOfName(items, i) ==> m[items[i].name] == items[i].stock
    decreases |items|, 1
  {
    if |items| == 0 then map[]
    else
      var init := items[..|items| - 1];
      var last := items[|items| - 1];
      assert items == init + [last];
      StockByNameStep(init, last);
      StockByName(init)[last.name := last.stock]
  }

  /** One more row adds or overwrites the entry of its own name only. */
  lemma StockByNameStep(init: seq<Item>, last: Item)
    ensures var items := init + [last];
            var m := StockByName(init)[last.name := last.stock];
            && (forall i :: 0 <= i < |items| ==> items[i].name in m)
            && (forall n :: n in m ==> exists i :: 0 <= i < |items| && items[i].name == n)
            && (forall i :: 0 <= i < |items| && LastOfName(items, i) ==> m[items[i].name] == items[i].stock)
    decreases |init| + 1, 0
  {
    var items := init + [last];
    var m0 := StockByName(init);
    var m := m0[last.name := last.stock];
    forall i | 0 <= i < |items|
      ensures items[i].name in m
    {
      if i < |init| {
        assert items[i] == init[i];
      }
    }
    forall n | n in m
      ensures exists i :: 0 <= i < |items| && items[i].name == n
    {
      if n == last.name {
        assert items[|init|].name == n;
      } else {
        assert n in m0;
        var i :| 0 <= i < |init| && init[i].name == n;
        assert items[i] == init[i];
      }
    }
    forall i | 0 <= i < |items| && LastOfName(items, i)
      ensures m[items[i].name] == items[i].stock
    {
      if i < |init| {
        assert items[i] == init[i];
        assert items[|init|] == last;
        assert last.name != init[i].name;
        forall j | i < j < |init|
          ensures init[j].name != init[i].name
        {
          assert items[j] == init[j];
        }
        assert LastOfName(init, i);
      }
    }
  }
}

=== FILE: wrappers.dfy ===
/** The one failure-compatible wrapper the model needs: a value that may be missing. */
module Wrappers {

  datatype Option<+T> = None | Some(value: T)
}
